=== FILE: README.md ===
# filecat core, modelled in Dafny

filecat gathers the source files of a project into one text. It has four
parts:

- It turns the `--ext` and `--exclude` flags into a configuration.
- It walks the directory tree. The walk skips excluded directories and
  keeps the files whose extension is configured. In match-all mode
  (`-e none`) it keeps every file that is not hidden. It counts the lines
  of each file it keeps and sorts the records by extension, then by path.
- It draws an indented directory tree. This is a second walk that
  applies the exclusion and extension rules again.
- It writes the tree and then the files, grouped under one heading per
  extension.

The model replaces the file system with an immutable tree. A `Node` is
either `File(name, content, readable)` or `Dir(name, readable, children)`,
and children are kept in listing order. Every operation is a pure function
or method over this tree.

Modules, one per concern:

- `Results`: `Option` and `Result`.
- `Strs`: the `strings` functions the core uses:
  - `Contains`, `Split`/`JoinWith` (with their round trip), `HasPrefix`;
  - ASCII `ToUpper`, `Repeat`;
  - Go's byte-wise string order `Less`.
- `Paths`: `filepath.Clean`, `filepath.Join`, `filepath.Ext` and
  `filepath.Base` on `/`-separated paths.
- `Configuration`: `NewConfig` (internal/core/config.go).
- `FileTree`: the tree. It also defines `Entries`, the depth-first list of
  every entry with its path and enclosing directories. Both walks are
  characterised against this independent reference.
- `LineCount`: `countLines`, with `bufio.Scanner`'s line rule.
- `Discovery`: `FindFiles`. This covers `filepath.Walk` with its callback,
  the selection policy, and the sort.
- `DirectoryTree`: `GenerateDirectoryTree` and its recursive `walk`.
- `Aggregate`: the rendering loop shared by `CombineFiles` and
  `GenerateContent`.
- `Agreement`: the tree lists the same files as `FindFiles` when the
  configuration allows it.
- `Findings`: the three discrepancies below. Each is shown next to its
  corrected counterpart.

The following become parameters:

- The tree and its readability flags stand in for the file system.
- `disk` maps the path of every file that can be read at output time to
  its content.
- The tree text is passed to the rendering methods.

The group heading upper-cases the extension together with its dot
(`.GO Files:`), and its underline is `len(ext)+7` characters long.

## Model

| member | source | states |
|---|---|---|
| Configuration.ParseExtensions | internal/core/config.go:33-66 | "none", and only "none", gives the match-all list [""]. An empty flag is the "no extensions" error. A flag made only of commas is the "no valid extensions" error. Any other flag gives a non-empty list of non-empty extensions, each starting with '.' and holding no ','. That list is the flag's non-empty comma segments, in input order, each given a leading dot. |
| Configuration.Normalize | internal/core/config.go:45-51 | A segment is empty after normalising exactly when it was empty. A non-empty result starts with '.', and is the segment itself or the segment with one dot added in front. Normalising neither adds nor removes a ','. |
| Configuration.NormalizeAll | internal/core/config.go:43-52 | The in-place loop keeps the list's length and normalises each segment at its own position. |
| Configuration.DropEmpty | internal/core/config.go:54-61 | The filter keeps exactly the non-empty entries, is never longer than its input, and returns a list with no empty entry unchanged. |
| Configuration.DropEmptyAppend | internal/core/config.go:54-61 | The filter distributes over concatenation, so the kept extensions keep their input order and their repetitions. |
| Configuration.NormalizedShape | internal/core/config.go:45-51 | Segments that are non-empty and hold no ',' normalise to extensions that are non-empty, start with '.' and hold no ','. |
| Configuration.NormalizedKept | internal/core/config.go:49-51 | Extensions that already start with '.' are left unchanged by normalising. |
| Configuration.NormalizeThenDrop | internal/core/config.go:42-61 | Normalising and then dropping empty segments, as the source does, gives the same list as dropping and then normalising. |
| Configuration.AllEmptyIffOnlyCommas | internal/core/config.go:54-65 | Every comma segment is empty exactly when the flag consists of commas only. This is the second error case. |
| Configuration.ReparseIsNoOp | internal/core/config.go:42-61 | Normalisation is idempotent: parsing the comma-joined result of a successful parse gives the same result. |
| Configuration.LeadingDotOptional | internal/core/config.go:49-51 | "go" and ".go" parse to the same single extension ".go". |
| Configuration.ExcludeList | internal/core/config.go:68-73 | The six defaults always end the list. An empty flag gives exactly the defaults. Otherwise the defaults follow the user's comma segments, which hold no ',' and join back to the flag. |
| Configuration.NewConfig | internal/core/config.go:20-76 | The configuration is an error exactly when the extension flag is empty or is all commas, and is the "no extensions" error exactly when it is empty. On success the root is kept, the extensions are the match-all list exactly for "none", and the defaults end the exclude list. The extensions are exactly the parsed `--ext` list and the excludes are exactly the `-x` list built by ExcludeList. |
| Configuration.ExcludeListIntended | internal/core/config.go:68-73 | The corrected exclude list never holds "". Its entries are exactly the non-empty entries of the source's list, and the defaults still end it. |
| LineCount.CountLines | internal/core/files.go:159-172 | The count of scanned lines equals the number of newlines, plus one when the text is non-empty and does not end in a newline. Empty text counts zero. |
| Discovery.MatchExtension | internal/core/files.go:77-93 | The extension loop yields a record exactly when the extension is configured and the file can be counted. It yields at most one record, even when an extension is listed twice. |
| Discovery.VisitFile | internal/core/files.go:55-94 | A file is recorded, with the extension of its path, exactly when the policy selects it and it can be counted. In match-all mode the policy selects every file whose base name does not start with '.'. Otherwise it selects the files whose extension equals a configured one. |
| Discovery.SortFiles | internal/core/files.go:99-105 | The result is sorted by extension, then by path, in Go string order, and is a permutation of the input. |
| Discovery.LeqTransitive | internal/core/files.go:100-105 | The (extension, path) order used by the sort is transitive. |
| Discovery.FindFiles | internal/core/files.go:23-108 | FindFiles returns the walk's records, sorted and permuted, together with the walk's error. |
| Discovery.WalkNode | internal/core/files.go:38-95 | The walk from one entry reports an error only when that entry is a directory. Every record it returns is selected by the policy and carries the extension of its own path. |
| Discovery.WalkChildren | internal/core/files.go:38-95 | The walk over a directory's entries in listing order reports an error only when one of the entries is a directory. Every record it returns is selected and carries its path's extension. |
| Discovery.FirstBlock | internal/core/files.go:38-41 | The position of the first entry that stops the walk: an unreadable directory whose enclosing directories are all readable and not excluded. No earlier entry stops the walk. The position is the number of entries when no entry stops it. |
| Discovery.WalkAdmits | internal/core/files.go:38-95 | Walking from an entry records a prefix of the admitted entries at or below it, in depth-first order. An admitted entry is a readable, selected file with no excluded directory above it. When the walk does not stop, it records all of them. |
| Discovery.FoundAreAdmitted | internal/core/files.go:38-95 | Every returned record belongs to an admitted entry. No file under a directory whose path contains an exclude entry is ever returned. |
| Discovery.FindFilesComplete | internal/core/files.go:38-107 | A run that does not stop early returns one record for each admitted entry, as a sorted permutation. |
| Discovery.WalkStopsAtUnreadable | internal/core/files.go:38-95 | The walk from an entry reports an error exactly when it reaches a blocking directory, and the error names the first such directory in depth-first order. The records it returns are exactly the admitted records before that directory, in order, or all of them when none is reached. Because a listing is read before the callback runs, an unreadable directory stops the walk even when its path is excluded. |
| Discovery.ChildrenStopAtUnreadable | internal/core/files.go:38-95 | The same characterisation for the walk over a directory's entries. |
| Discovery.FindFilesStopsAtUnreadable | internal/core/files.go:38-107 | FindFiles returns the error of the first blocking directory, if any. Its records are a permutation of the admitted records that come before that directory. |
| Discovery.ReadableWalkCompletes | internal/core/files.go:38-41 | Over a tree in which everything can be read, the walk reports no error. |
| Paths.JoinResolved | internal/core/files.go:38 | `filepath.Join` of a non-empty directory and a valid name is the cleaned directory followed by the name. Cleaning drops empty and "." elements, resolves "..", and keeps a leading '/'. |
| Paths.ResolveIsResolved | internal/core/tree.go:32 | Resolving ".." over a path's elements gives the clean form. No element is empty or ".", and none holds a separator. ".." appears only at the front, and never after a leading '/'. |
| Paths.CleanIdempotent | internal/core/tree.go:32 | Cleaning is idempotent, so a path built by Join is already in clean form. |
| Paths.JoinPlainDir | internal/core/files.go:38 | Joining a name to a directory made of plain elements is plain concatenation with one '/'. |
| Paths.JoinBelowDot | internal/core/files.go:38 | A name joined to "." is the name alone, as for the entries of a walk started at ".". |
| Paths.CleanName | internal/core/tree.go:32 | A valid name joined to the empty directory is the name itself. |
| Paths.JoinDropsDotElements | cmd/filecat/main.go:31 | With the root "./web/scripts" from the help text, the entry a.js is walked as "web/scripts/a.js". The leading "./" is cleaned away. |
| Paths.Ext | internal/core/files.go:77 | The extension is either a suffix of the path that starts with '.' and holds no other '.' and no '/', or it is "". It is "" only when every '.' in the path has a '/' after it. Together these fix the result: the final element's suffix from its last '.'. |
| Paths.ExtScanEmpty | internal/core/files.go:77 | The backward scan stops with "" only when every '.' in the path has a separator after it. |
| Paths.ExtOfJoin | internal/core/tree.go:32-47 | A name joined to a directory has the same extension as the name alone. This ties the tree's test on names to discovery's test on paths. |
| Paths.BaseOfJoin | internal/core/tree.go:23-32 | The base of a name joined to a directory is the name. |
| DirectoryTree.Walk | internal/core/tree.go:16-55 | A directory gives no lines when its listing cannot be read, and a file root gives none either. Otherwise the first line is the directory's own base name at its level, and every later line is deeper. |
| DirectoryTree.WalkEntries | internal/core/tree.go:31-55 | Every line drawn for a directory's entries is deeper than the directory, and every file line names a file the rule lists. |
| DirectoryTree.WalkShowsEntries | internal/core/tree.go:16-55 | From any reached directory, the walk's lines are exactly the shown entries below it, in depth-first order. An entry is shown when every enclosing directory is readable and none below the root is excluded. A shown directory must be readable; a shown file must be listed by the rule. Each line sits at the entry's depth. |
| DirectoryTree.ChildrenShowEntries | internal/core/tree.go:31-55 | The loop over a directory's entries draws exactly the shown entries below it, in listing order, each subtree in depth-first order. |
| DirectoryTree.UnreadableShowsNothing | internal/core/tree.go:17-20 | Nothing at or below a directory that cannot be listed is shown: not the directory's own line, and no entry beneath it. |
| DirectoryTree.ExcludedShowsNothing | internal/core/tree.go:34-44 | A subdirectory whose path contains an exclude entry is left out together with its whole subtree. |
| DirectoryTree.TreeShowsEntries | internal/core/tree.go:12-58 | The whole tree is the shown entries of the tree from the root, at level 0. The root is never compared with the excludes. |
| DirectoryTree.GenerateDirectoryTree | internal/core/tree.go:12-60 | The tree text is the rendering of the shown entries of the whole tree, in depth-first order, with files listed under the source's extension rule. |
| DirectoryTree.Render | internal/core/tree.go:59 | When no name holds a newline, the tree text splits at newlines back into exactly one formatted line per tree line, with none trailing. |
| DirectoryTree.Format | internal/core/tree.go:22-50 | A formatted line holds no newline its name does not hold. It reads back as its level and name: four spaces per level and then "\|- " below the root, or the bare root name. |
| DirectoryTree.TreeTextReadsBack | internal/core/tree.go:22-59 | Each line of the rendered tree reads back as the depth and name of the corresponding tree line. |
| Aggregate.Block | internal/core/files.go:137-152 | The pieces written for one record: a heading for its extension exactly when it opens a group, then exactly one marker with its path, then its content exactly when the file can be read. |
| Aggregate.Layout | internal/core/files.go:133-153 | Every record gets its path marker, in order, whether or not its file can be read. The contents appear exactly for the readable records, in order. |
| Aggregate.RenderBody | internal/core/files.go:133-153 | The loop's output is the text of the layout. The layout has a heading before each record whose extension differs from the previous one, starting from "". Each record then gets its path marker, followed by its content and a blank line when the file can be read. |
| Aggregate.BlockText | internal/core/files.go:137-152 | The text written for one record is three parts in order: the heading block (a blank line, the title, its underline and another blank line) when the record opens a group; then the marker line; then the content and a blank line when the file can be read. |
| Aggregate.LayoutGrows | internal/core/files.go:133-153 | Each iteration appends exactly the text of its record's block to what is already written. |
| Aggregate.CombineFiles | internal/core/files.go:119-153 | The file output is the tree header, then the introduction line, then the grouped body with "// " markers. |
| Aggregate.GenerateContent | internal/core/files.go:186-220 | The in-memory output is the tree header, then "File Contents:" and its rule, then the grouped body with "\\ " markers. |
| Aggregate.UnderlineFitsTitle | internal/core/files.go:139-140 | The underline consists of '=' only and is exactly as long as the heading line it underlines. |
| Aggregate.SortedGroupsContiguous | internal/core/files.go:100-105 | In the sorted list, the records of one extension are contiguous. |
| Aggregate.GroupOpening | internal/core/files.go:133-142 | In a sorted list, a record gets a heading exactly when its extension is non-empty and no earlier record has it, that is, immediately before the first record of each group. |
| Aggregate.HeadingsGrow | internal/core/files.go:137-142 | Each record adds one heading exactly when it opens a group. |
| Aggregate.HeadingsCoverExtensions | internal/core/files.go:133-142 | Over a sorted list, the headings name exactly the non-empty extensions among the records. |
| Aggregate.HeadingsDistinct | internal/core/files.go:133-142 | Over a sorted list, no extension is headed twice. Together with the previous lemma, each distinct non-empty extension is headed exactly once. |
| Agreement.EntryAgrees | internal/core/tree.go:46-53 | Take a tree whose root is a directory that is not excluded, where every file and directory can be opened and every entry name is a valid name. There a file entry is listed in the tree exactly when discovery admits it, under a file rule that agrees with discovery's policy. |
| Agreement.TreeAgreesWithWalk | internal/core/tree.go:31-55 | For the same kind of tree (a directory root that is not excluded, everything readable, every entry name valid), the walk completes and the tree's file lines name exactly the walk's records, in the same order. |
| Agreement.GeneratedTreeMatchesFindFiles | internal/core/tree.go:34-53 | The source's tree and FindFiles list the same files when four conditions hold: the root is a directory, the extensions are not the match-all list, the root is not excluded, and everything can be read and carries a valid name. |
| Agreement.SamePathsAfterSort | internal/core/files.go:100-105 | Sorting changes neither which paths are found nor their number. |
| Findings.MatchAllTreeOmitsFiles | internal/core/tree.go:46-53 | With "-e none", FindFiles returns r/visible.md, but the source's tree shows the root alone. |
| Findings.IntendedTreeMatchesFindFiles | internal/core/tree.go:12-58 | With discovery's policy as the tree's file rule, and a file root drawn as itself, the tree and FindFiles list the same files in every mode, match-all included, for a directory root and a file root alike. This holds under three conditions: every file and directory can be opened, every entry name below the root is a valid name, and a directory root is not excluded. |
| Findings.FileRootFound | internal/core/files.go:38-95 | A readable file given as the root is walked as one file. It is recorded under the root path exactly when the policy selects it, and no error is reported. |
| Findings.FileRootTreeEmpty | internal/core/tree.go:17-20 | With a selected file as the root, FindFiles records the file, but the source's tree is the empty text. |
| Findings.FileRootTreeIntended | internal/core/tree.go:12-58 | The corrected tree draws a selected file root as one line, its base name, and that line names the path FindFiles records. |
| Findings.TrailingCommaExcludesEverything | internal/core/config.go:68-70 | "-x vendor," puts "" into the exclude list. Every path contains "", so every path is excluded, and FindFiles on a readable root directory returns nothing and no error. |
| Findings.TrailingCommaIntended | internal/core/config.go:68-73 | With the corrected list the same flag excludes vendor/ only, and main.go is still found. |

## Left out

- Command-line wiring, styling, printing, progress bars and the stderr
  warnings are not modelled. A warning appears only as a dropped file or
  a missing content.
- Clipboard copying is not modelled, because it is a foreign operating
  system call.
- File creation and `bufio.Writer.Flush` errors in CombineFiles are not
  modelled. The model computes the text that would be written.
- The reads of file contents at output time are the `disk` parameter.
- The Lstat and ReadDir details of `filepath.Walk` are not modelled.
  Symbolic links and a tree that changes during the walk are left out.
  A tree entry is either a file or a directory.
- Hidden directories are not special in the source, and are not special
  here either.
- `LineCount.CountLines`: `bufio.Scanner`'s 64 KiB token limit is not
  modelled. A file that cannot be counted is modelled only as an
  unreadable file.
- `Strs.ToUpper`: only ASCII letters are changed. Unicode case mapping is
  not modelled.
- `Paths.Clean`: only '/' is a separator. The Windows separator and
  volume names (the `C:\path` example in the help text) are not modelled.
  The walk passes the root path to its callback as given, uncleaned,
  exactly as `filepath.Walk` does.
- Text is a sequence of characters, one character standing for one
  byte. Encodings are not modelled.
- `Discovery.SortFiles`: `sort.Slice` is not stable. The model uses an
  insertion sort with the same order. Two records with the same extension
  and path name the same file, so the order between them cannot be
  observed.
- The root's own line in the tree uses `filepath.Base` of the root path.
  The root node's name is not used.

## Findings

| source | as written | input that shows it | evidently intended | confidence | as-written member | corrected member |
|---|---|---|---|---|---|---|
| internal/core/tree.go:46-53 | The tree lists a file only when `filepath.Ext(name)` equals a configured extension. It has no match-all case, so with `-e none` (extensions [""]) it lists only files without an extension, while FindFiles returns every non-hidden file. | Root r holding visible.md, run with `-e none`: FindFiles returns r/visible.md, and the tree is just "r". | The tree shows the files that are combined below it. In match-all mode that means every non-hidden file. | medium, not executed | Findings.MatchAllTreeOmitsFiles | Findings.IntendedTreeMatchesFindFiles |
| internal/core/tree.go:16-20 | The tree starts with `os.ReadDir(root)`. A file root makes that call fail, so the tree is empty, while FindFiles walks the file and records it. | `-r main.go -e go`: FindFiles returns main.go, and the tree text is "". | The tree shows what is combined below it, so a file root is drawn as a one-line tree naming the file. | low, not executed | Findings.FileRootTreeEmpty | Findings.FileRootTreeIntended |
| internal/core/config.go:68-70 | The exclude flag is split on ',' and empty segments are kept. Any empty segment adds "", which `strings.Contains` finds in every path. | `-x vendor,` gives exclude list ["vendor", "", ...]. The root itself is skipped and nothing is found. | Empty segments are dropped, as they are for `--ext`. | medium, not executed | Findings.TrailingCommaExcludesEverything | Configuration.ExcludeListIntended |

=== FILE: aggregate.dfy ===
/** The grouped output of CombineFiles and GenerateContent
    (internal/core/files.go): a heading whenever the extension changes, a
    path marker for every record, and the content of every file that can
    be read. */
module Aggregate {
  import opened Strs
  import opened Discovery

  /** A part of the output. */
  datatype Piece =
    | Heading(ext: string)   // the group heading for an extension
    | Marker(path: string)   // the line naming a file
    | Content(text: string)  // a file's content and the blank line after it

  /** The extension of the record before `i`; the loop starts from "". */
  function PreviousExt(files: seq<FileInfo>, i: nat): string
    requires i < |files|
  {
    if i == 0 then "" else files[i - 1].ext
  }

  /** Record `i` gets a heading: its extension differs from the previous
      one. */
  predicate OpensGroup(files: seq<FileInfo>, i: nat)
    requires i < |files|
  {
    files[i].ext != PreviousExt(files, i)
  }

  /** The pieces for record `i`. `disk` holds the content of every file
      that can be read when the output is built. */
  function Block(files: seq<FileInfo>, i: nat, disk: map<string, string>): (ps: seq<Piece>)
    requires i < |files|
    ensures Headings(ps) == if OpensGroup(files, i) then [files[i].ext] else []
    ensures Markers(ps) == [files[i].path]
    ensures Contents(ps) == if files[i].path in disk then [disk[files[i].path]] else []
  {
    var h: seq<Piece> := if OpensGroup(files, i) then [Heading(files[i].ext)] else [];
    var m: seq<Piece> := [Marker(files[i].path)];
    var c: seq<Piece> := if files[i].path in disk then [Content(disk[files[i].path])] else [];
    PartsAppend(h, m);
    PartsAppend(h + m, c);
    h + m + c
  }

  /** The blocks of all records, in order. Every record gets its marker,
      in order, whether or not it can be read; exactly the readable ones
      get their content. */
  function Layout(files: seq<FileInfo>, disk: map<string, string>): (ps: seq<Piece>)
    ensures Markers(ps) == PathsOf(files)
    ensures Contents(ps) == ReadableContents(files, disk)
    decreases |files|
  {
    if files == [] then []
    else
      var n := |files| - 1;
      ContentsAppend(Layout(files[..n], disk), Block(files, n, disk));
      MarkersAppend(Layout(files[..n], disk), Block(files, n, disk));
      PathsOfLast(files);
      Layout(files[..n], disk) + Block(files, n, disk)
  }

  /** The heading of a group: the extension upper-cased (its dot
      included), then " Files:". */
  function Title(ext: string): string {
    ToUpper(ext) + " Files:"
  }

  /** strings.Repeat("=", len(ext)+7). */
  function Underline(ext: string): string {
    Repeat('=', |ext| + 7)
  }

  /** The underline is exactly as wide as the heading above it. */
  lemma UnderlineFitsTitle(ext: string)
    ensures |Underline(ext)| == |Title(ext)|
    ensures forall i :: 0 <= i < |Underline(ext)| ==> Underline(ext)[i] == '='
  {
  }

  /** The text written for a piece; `marker` starts the line naming a file. */
  function PieceText(p: Piece, marker: string): string {
    match p
    case Heading(ext) => "\n" + Title(ext) + "\n" + Underline(ext) + "\n" + "\n"
    case Marker(path) => marker + path + "\n"
    case Content(text) => text + "\n" + "\n"
  }

  function Text(ps: seq<Piece>, marker: string): string
    decreases |ps|
  {
    if ps == [] then "" else PieceText(ps[0], marker) + Text(ps[1..], marker)
  }

  lemma {:induction false} TextAppend(a: seq<Piece>, b: seq<Piece>, marker: string)
    ensures Text(a + b, marker) == Text(a, marker) + Text(b, marker)
    decreases |a|
  {
    if a == [] {
      assert a + b == b;
    } else {
      assert (a + b)[1..] == a[1..] + b;
      TextAppend(a[1..], b, marker);
    }
  }

  /** The loop shared by CombineFiles and GenerateContent, with its
      `currentExt` starting at "": it writes the pieces of the layout, in
      order, and the text written is theirs. */
  method RenderBody(files: seq<FileInfo>, disk: map<string, string>, marker: string) returns (out: string)
    ensures out == Text(Layout(files, disk), marker)
  {
    var written: seq<Piece> := [];
    var currentExt := "";
    var i := 0;
    while i < |files|
      invariant 0 <= i <= |files|
      invariant currentExt == if i == 0 then "" else files[i - 1].ext
      invariant written == LayoutUpTo(files, i, disk)
    {
      var pieces := RenderRecord(files, i, disk, currentExt);
      currentExt := files[i].ext;
      written := written + pieces;
      i := i + 1;
    }
    LayoutUpToAll(files, disk);
    out := Text(written, marker);
  }

  /** The blocks of the records before `i`, as the loop counts them. */
  function LayoutUpTo(files: seq<FileInfo>, i: nat, disk: map<string, string>): seq<Piece>
    requires i <= |files|
  {
    if i == 0 then [] else LayoutUpTo(files, i - 1, disk) + Block(files, i - 1, disk)
  }

  /** Counting blocks up to `i` lays out the first `i` records. */
  lemma {:induction false} LayoutUpToPrefix(files: seq<FileInfo>, i: nat, disk: map<string, string>)
    requires i <= |files|
    ensures LayoutUpTo(files, i, disk) == Layout(files[..i], disk)
  {
    if i > 0 {
      var j := i - 1;
      LayoutUpToPrefix(files, j, disk);
      LayoutPrefix(files, j, disk);
      assert LayoutUpTo(files, j + 1, disk) == Layout(files[..j + 1], disk);
    }
  }

  lemma LayoutUpToAll(files: seq<FileInfo>, disk: map<string, string>)
    ensures LayoutUpTo(files, |files|, disk) == Layout(files, disk)
  {
    LayoutUpToPrefix(files, |files|, disk);
    assert files[..|files|] == files;
  }

  /** One pass of the loop: a heading when the extension differs from the
      one before, the marker, and the content when the file can be read. */
  method RenderRecord(files: seq<FileInfo>, i: nat, disk: map<string, string>, currentExt: string)
    returns (pieces: seq<Piece>)
    requires i < |files|
    requires currentExt == PreviousExt(files, i)
    ensures pieces == Block(files, i, disk)
  {
    var file := files[i];
    pieces := [];
    if currentExt != file.ext {
      pieces := [Heading(file.ext)];
    }
    pieces := pieces + [Marker(file.path)];
    if file.path in disk {
      pieces := pieces + [Content(disk[file.path])];
    }
  }

  /** The text of the layout of the first `i + 1` records extends that of
      the first `i` by the text of record `i`'s block. */
  lemma LayoutGrows(files: seq<FileInfo>, i: nat, disk: map<string, string>, marker: string)
    requires i < |files|
    ensures Text(Layout(files[..i + 1], disk), marker)
         == Text(Layout(files[..i], disk), marker) + Text(Block(files, i, disk), marker)
  {
    LayoutPrefix(files, i, disk);
    TextAppend(Layout(files[..i], disk), Block(files, i, disk), marker);
  }

  lemma LayoutPrefix(files: seq<FileInfo>, i: nat, disk: map<string, string>)
    requires i < |files|
    ensures Layout(files[..i + 1], disk) == Layout(files[..i], disk) + Block(files, i, disk)
  {
    assert files[..i + 1][..i] == files[..i];
    assert Block(files[..i + 1], i, disk) == Block(files, i, disk);
  }

  lemma BlockText(files: seq<FileInfo>, i: nat, disk: map<string, string>, marker: string)
    requires i < |files|
    ensures Text(Block(files, i, disk), marker)
         == (if OpensGroup(files, i) then PieceText(Heading(files[i].ext), marker) else "")
          + PieceText(Marker(files[i].path), marker)
          + (if files[i].path in disk then PieceText(Content(disk[files[i].path]), marker) else "")
  {
    var h: seq<Piece> := if OpensGroup(files, i) then [Heading(files[i].ext)] else [];
    var m: seq<Piece> := [Marker(files[i].path)];
    var c: seq<Piece> := if files[i].path in disk then [Content(disk[files[i].path])] else [];
    assert Block(files, i, disk) == h + m + c;
    TextAppend(h + m, c, marker);
    TextAppend(h, m, marker);
    SingleText(m, marker);
    if h != [] { SingleText(h, marker); }
    if c != [] { SingleText(c, marker); }
  }

  lemma SingleText(ps: seq<Piece>, marker: string)
    requires |ps| == 1
    ensures Text(ps, marker) == PieceText(ps[0], marker)
  {
    assert Text(ps[1..], marker) == "";
  }

  /** The opening lines shared by both outputs. */
  function TreeHeader(tree: string): string {
    "Directory Structure:\n" + "===================\n" + tree + "\n"
  }

  /** The text CombineFiles writes to the output file, given the tree text
      and the files readable at that time. */
  method CombineFiles(files: seq<FileInfo>, tree: string, disk: map<string, string>) returns (out: string)
    ensures out == TreeHeader(tree)
      + "\nThe Source File Contents Are Listed Below, Organized by Extension Under the Respective Heading\n"
      + Text(Layout(files, disk), "// ")
  {
    var body := RenderBody(files, disk, "// ");
    out := TreeHeader(tree)
      + "\nThe Source File Contents Are Listed Below, Organized by Extension Under the Respective Heading\n"
      + body;
  }

  /** The text GenerateContent builds in memory. */
  method GenerateContent(files: seq<FileInfo>, tree: string, disk: map<string, string>) returns (out: string)
    ensures out == TreeHeader(tree) + "\nFile Contents:\n" + "===============\n\n" + Text(Layout(files, disk), "\\ ")
  {
    var body := RenderBody(files, disk, "\\ ");
    out := TreeHeader(tree) + "\nFile Contents:\n" + "===============\n\n" + body;
  }

  /** The extensions of the headings, the paths of the markers and the
      texts of the contents in a piece list. */
  function Headings(ps: seq<Piece>): seq<string> {
    if ps == [] then [] else (if ps[0].Heading? then [ps[0].ext] else []) + Headings(ps[1..])
  }

  function Markers(ps: seq<Piece>): seq<string> {
    if ps == [] then [] else (if ps[0].Marker? then [ps[0].path] else []) + Markers(ps[1..])
  }

  function Contents(ps: seq<Piece>): seq<string> {
    if ps == [] then [] else (if ps[0].Content? then [ps[0].text] else []) + Contents(ps[1..])
  }

  lemma PartsAppend(a: seq<Piece>, b: seq<Piece>)
    ensures Headings(a + b) == Headings(a) + Headings(b)
    ensures Markers(a + b) == Markers(a) + Markers(b)
    ensures Contents(a + b) == Contents(a) + Contents(b)
  {
    HeadingsAppend(a, b);
    MarkersAppend(a, b);
    ContentsAppend(a, b);
  }

  lemma {:induction false} HeadingsAppend(a: seq<Piece>, b: seq<Piece>)
    ensures Headings(a + b) == Headings(a) + Headings(b)
    decreases |a|
  {
    if a == [] {
      assert a + b == b;
    } else {
      assert (a + b)[0] == a[0];
      assert (a + b)[1..] == a[1..] + b;
      HeadingsAppend(a[1..], b);
    }
  }

  lemma {:induction false} MarkersAppend(a: seq<Piece>, b: seq<Piece>)
    ensures Markers(a + b) == Markers(a) + Markers(b)
    decreases |a|
  {
    if a == [] {
      assert a + b == b;
    } else {
      assert (a + b)[0] == a[0];
      assert (a + b)[1..] == a[1..] + b;
      MarkersAppend(a[1..], b);
    }
  }

  lemma {:induction false} ContentsAppend(a: seq<Piece>, b: seq<Piece>)
    ensures Contents(a + b) == Contents(a) + Contents(b)
    decreases |a|
  {
    if a == [] {
      assert a + b == b;
    } else {
      assert (a + b)[0] == a[0];
      assert (a + b)[1..] == a[1..] + b;
      ContentsAppend(a[1..], b);
    }
  }


  /** The contents, in record order, of the records that can be read. */
  function ReadableContents(files: seq<FileInfo>, disk: map<string, string>): seq<string> {
    if files == [] then []
    else
      var last := files[|files| - 1];
      ReadableContents(files[..|files| - 1], disk) + (if last.path in disk then [disk[last.path]] else [])
  }

  /** In a sorted list the extensions never decrease. */
  lemma SortedExtsGrow(files: seq<FileInfo>, i: nat, j: nat)
    requires Sorted(files) && i < j < |files|
    ensures files[i].ext == files[j].ext || Less(files[i].ext, files[j].ext)
  {
    LessTotal(files[i].ext, files[j].ext);
  }

  /** In a sorted list, records sharing an extension are adjacent. */
  lemma SortedGroupsContiguous(files: seq<FileInfo>, i: nat, j: nat, k: nat)
    requires Sorted(files) && i < j < k < |files|
    ensures files[i].ext == files[k].ext ==> files[j].ext == files[i].ext
  {
    var a, b, c := files[i].ext, files[j].ext, files[k].ext;
    SortedExtsGrow(files, i, j);
    SortedExtsGrow(files, j, k);
    LessIrreflexive(a);
    if Less(a, b) && Less(b, c) {
      LessTransitive(a, b, c);
    }
  }

  /** Over a sorted list, a record gets a heading exactly when it is the
      first with its extension and that extension is not empty; records
      without an extension, which sort first, get none. */
  lemma GroupOpening(files: seq<FileInfo>, i: nat)
    requires Sorted(files) && i < |files|
    ensures OpensGroup(files, i) <==> files[i].ext != "" && forall j :: 0 <= j < i ==> files[j].ext != files[i].ext
  {
    if i > 0 {
      SortedExtsGrow(files, i - 1, i);
      forall j | 0 <= j < i - 1 ensures files[j].ext == files[i].ext ==> files[i - 1].ext == files[j].ext {
        SortedGroupsContiguous(files, j, i - 1, i);
      }
    }
  }

  /** The headings of a layout grow by one exactly at a record that opens
      a group. */
  lemma HeadingsGrow(files: seq<FileInfo>, disk: map<string, string>)
    requires files != []
    ensures Headings(Layout(files, disk))
         == Headings(Layout(files[..|files| - 1], disk))
          + (if OpensGroup(files, |files| - 1) then [files[|files| - 1].ext] else [])
  {
    PartsAppend(Layout(files[..|files| - 1], disk), Block(files, |files| - 1, disk));
  }


  /** Over a sorted list, the headings name every non-empty extension of
      the records. */
  lemma {:induction false} HeadingsCoverExtensions(files: seq<FileInfo>, disk: map<string, string>)
    requires Sorted(files)
    ensures forall e :: e in Headings(Layout(files, disk)) <==> e != "" && exists f :: f in files && f.ext == e
    decreases |files|
  {
    if files != [] {
      var n := |files| - 1;
      var init := files[..n];
      assert Sorted(init);
      HeadingsCoverExtensions(init, disk);
      HeadingsGrow(files, disk);
      GroupOpening(files, n);
      CoverStep(files, Headings(Layout(init, disk)), Headings(Layout(files, disk)));
    }
  }

  /** Adding the last record's extension as a heading exactly when it is
      new and not empty keeps the headings equal to the extensions seen. */
  lemma CoverStep(files: seq<FileInfo>, h0: seq<string>, h: seq<string>)
    requires files != []
    requires forall e :: e in h0 <==> e != "" && exists f :: f in files[..|files| - 1] && f.ext == e
    requires h == h0 + (if files[|files| - 1].ext != "" && forall j :: 0 <= j < |files| - 1 ==> files[j].ext != files[|files| - 1].ext
                        then [files[|files| - 1].ext] else [])
    ensures forall e :: e in h <==> e != "" && exists f :: f in files && f.ext == e
  {
    var n := |files| - 1;
    MembersOfLast(files);
    forall e ensures e in h <==> e != "" && exists f :: f in files && f.ext == e {
      if e == files[n].ext && e != "" && e !in h0 {
        assert forall j :: 0 <= j < n ==> files[j].ext != e by {
          forall j | 0 <= j < n ensures files[j].ext != e {
            assert files[..n][j] in files[..n];
          }
        }
      }
      if e in h0 {
        var f :| f in files[..n] && f.ext == e;
        assert f in files;
      }
      if e != "" && e != files[n].ext && exists f :: f in files && f.ext == e {
        var f :| f in files && f.ext == e;
        assert f in files[..n];
      }
    }
  }

  lemma MembersOfLast(files: seq<FileInfo>)
    requires files != []
    ensures forall f :: f in files <==> f in files[..|files| - 1] || f == files[|files| - 1]
  {
    assert files == files[..|files| - 1] + [files[|files| - 1]];
  }

  /** Over a sorted list, no extension is headed twice. */
  lemma {:induction false} HeadingsDistinct(files: seq<FileInfo>, disk: map<string, string>)
    requires Sorted(files)
    ensures Distinct(Headings(Layout(files, disk)))
    decreases |files|
  {
    if files != [] {
      var n := |files| - 1;
      var init := files[..n];
      assert Sorted(init);
      HeadingsDistinct(init, disk);
      HeadingsGrow(files, disk);
      if OpensGroup(files, n) {
        NewHeading(files, disk);
        DistinctAppend(Headings(Layout(init, disk)), files[n].ext);
      }
    }
  }

  /** No string occurs twice. */
  predicate Distinct(xs: seq<string>) {
    forall a, b :: 0 <= a < b < |xs| ==> xs[a] != xs[b]
  }

  lemma DistinctAppend(xs: seq<string>, x: string)
    requires Distinct(xs) && x !in xs
    ensures Distinct(xs + [x])
  {
    forall a, b | 0 <= a < b < |xs + [x]| ensures (xs + [x])[a] != (xs + [x])[b] {
      assert (xs + [x])[a] == xs[a];
      if b < |xs| {
        assert (xs + [x])[b] == xs[b];
      }
    }
  }

  /** A record that opens a group in a sorted list brings an extension no
      earlier heading names. */
  lemma NewHeading(files: seq<FileInfo>, disk: map<string, string>)
    requires Sorted(files) && files != [] && OpensGroup(files, |files| - 1)
    ensures files[|files| - 1].ext !in Headings(Layout(files[..|files| - 1], disk))
  {
    var n := |files| - 1;
    var init := files[..n];
    assert Sorted(init);
    GroupOpening(files, n);
    HeadingsCoverExtensions(init, disk);
    forall f | f in init ensures f.ext != files[n].ext {
      var j :| 0 <= j < n && init[j] == f;
    }
  }
}

=== FILE: agreement.dfy ===
/** The two walks agree: the tree lists the same files, under the same
    directories, as discovery returns, whenever its file rule agrees with
    discovery's policy, the root is not excluded and everything can be
    read. */
module Agreement {
  import opened Paths
  import opened FileTree
  import opened Configuration
  import opened Discovery
  import opened DirectoryTree

  /** The tree's file rule lists a name exactly when discovery's policy
      selects it: always for the discovery policy itself, and for the
      source's extension rule whenever the extensions are not the
      match-all marker. */
  predicate RuleAgrees(rule: FileRule, exts: seq<string>) {
    rule == AsDiscovery(exts) || (rule == ExtensionIn(exts) && !MatchAll(exts))
  }

  /** On file entries, being shown and being admitted coincide. */
  lemma {:induction false} SameFiles(es: seq<Entry>, cfg: Config, rule: FileRule)
    requires forall e :: e in es && e.node.File? ==> (Shown(e, cfg.excludeDirs, rule) <==> Admitted(e, cfg))
    ensures FilePaths(ShownLines(es, cfg.excludeDirs, rule)) == PathsOf(AdmittedRecords(es, cfg))
    decreases |es|
  {
    if es != [] {
      assert es[0] in es;
      assert forall e :: e in es[1..] ==> e in es;
      SameFiles(es[1..], cfg, rule);
      var shown: seq<TreeLine> := if Shown(es[0], cfg.excludeDirs, rule) then [LineOf(es[0])] else [];
      var mine: seq<FileInfo> := if Admitted(es[0], cfg) then [RecordOf(es[0])] else [];
      assert ShownLines(es, cfg.excludeDirs, rule) == shown + ShownLines(es[1..], cfg.excludeDirs, rule);
      assert AdmittedRecords(es, cfg) == mine + AdmittedRecords(es[1..], cfg);
      FilePathsAppend(shown, ShownLines(es[1..], cfg.excludeDirs, rule));
      PathsOfAppend(mine, AdmittedRecords(es[1..], cfg));
      assert FilePaths(shown) == PathsOf(mine);
    }
  }

  lemma FilePathsAppend(a: seq<TreeLine>, b: seq<TreeLine>)
    requires |a| <= 1
    ensures FilePaths(a + b) == FilePaths(a) + FilePaths(b)
  {
    if a == [] {
      assert a + b == b;
    } else {
      assert (a + b)[0] == a[0];
      assert (a + b)[1..] == b;
    }
  }

  /** The step from the root to a file below it. */
  lemma BelowRoot(root: string, node: Node, e: Entry)
    requires e in Entries(root, node, []) && e.node.File? && node.Dir?
    ensures |e.above| > 0 && e.above[0].path == root
  {
    var es := Entries(root, node, []);
    var k :| 0 <= k < |es| && es[k] == e;
    assert k != 0;
    assert es[1..][k - 1] == e;
  }

  /** A name listed by an agreeing rule is a path the policy selects. */
  lemma NameAgrees(dir: string, name: string, rule: FileRule, exts: seq<string>)
    requires ValidName(name) && RuleAgrees(rule, exts)
    ensures Lists(rule, name) <==> Selects(exts, Join(dir, name))
  {
    ExtOfJoin(dir, name);
    BaseOfJoin(dir, name);
    BaseOfJoin("", name);
    CleanName(name);
  }

  /** A file entry of a readable, well-named tree whose root is not
      excluded is shown exactly when it is admitted. */
  lemma EntryAgrees(e: Entry, cfg: Config, root: Node, rule: FileRule)
    requires root.Dir? && AllReadable(root) && WellNamed(root)
    requires !Excluded(cfg.rootDir, cfg.excludeDirs)
    requires RuleAgrees(rule, cfg.fileExtensions)
    requires e in Entries(cfg.rootDir, root, []) && e.node.File?
    ensures Shown(e, cfg.excludeDirs, rule) <==> Admitted(e, cfg)
  {
    BelowRoot(cfg.rootDir, root, e);
    EntriesLinked(cfg.rootDir, root, []);
    EntriesReadable(cfg.rootDir, root, []);
    assert Linked(e) && ReadableEntry(e);
    NameAgrees(e.above[|e.above| - 1].path, e.node.name, rule, cfg.fileExtensions);
    assert (forall i :: 1 <= i < |e.above| ==> !Excluded(e.above[i].path, cfg.excludeDirs))
       <==> (forall i :: 0 <= i < |e.above| ==> !Excluded(e.above[i].path, cfg.excludeDirs));
  }

  /** Over a readable, well-named tree whose root is not excluded, the walk
      completes and the tree's file lines name exactly the files it
      records, in the same order. */
  lemma TreeAgreesWithWalk(cfg: Config, root: Node, rule: FileRule)
    requires root.Dir? && AllReadable(root) && WellNamed(root)
    requires !Excluded(cfg.rootDir, cfg.excludeDirs)
    requires RuleAgrees(rule, cfg.fileExtensions)
    ensures WalkNode(cfg.rootDir, root, cfg).err.None?
    ensures FilePaths(Walk(cfg.rootDir, root, 0, cfg.excludeDirs, rule)) == PathsOf(WalkNode(cfg.rootDir, root, cfg).files)
  {
    var es := Entries(cfg.rootDir, root, []);
    ReadableWalkCompletes(cfg.rootDir, root, cfg);
    WalkAdmits(cfg.rootDir, root, [], cfg);
    TreeShowsEntries(cfg.rootDir, root, cfg.excludeDirs, rule);
    forall e | e in es && e.node.File?
      ensures Shown(e, cfg.excludeDirs, rule) <==> Admitted(e, cfg)
    {
      EntryAgrees(e, cfg, root, rule);
    }
    SameFiles(es, cfg, rule);
  }

  /** The source's tree and FindFiles list the same files when the
      extensions are not the match-all marker, the root is not excluded
      and everything can be read. */
  lemma GeneratedTreeMatchesFindFiles(cfg: Config, root: Node)
    requires root.Dir? && AllReadable(root) && WellNamed(root)
    requires !Excluded(cfg.rootDir, cfg.excludeDirs)
    requires !MatchAll(cfg.fileExtensions)
    ensures FindFiles(cfg, root).err.None?
    ensures forall p :: p in FilePaths(Walk(cfg.rootDir, root, 0, cfg.excludeDirs, ExtensionIn(cfg.fileExtensions)))
                    <==> p in PathsOf(FindFiles(cfg, root).files)
  {
    TreeAgreesWithWalk(cfg, root, ExtensionIn(cfg.fileExtensions));
    SamePathsAfterSort(cfg, root);
  }

  /** Sorting does not change which paths were found. */
  lemma SamePathsAfterSort(cfg: Config, root: Node)
    ensures forall p :: p in PathsOf(WalkNode(cfg.rootDir, root, cfg).files) <==> p in PathsOf(FindFiles(cfg, root).files)
  {
    var w := WalkNode(cfg.rootDir, root, cfg).files;
    var s := FindFiles(cfg, root).files;
    forall p ensures p in PathsOf(w) <==> p in PathsOf(s) {
      if p in PathsOf(w) { PathInPermutation(w, s, p); }
      if p in PathsOf(s) { PathInPermutation(s, w, p); }
    }
  }

  /** A rearrangement of the records keeps every path. */
  lemma PathInPermutation(a: seq<FileInfo>, b: seq<FileInfo>, p: string)
    requires multiset(a) == multiset(b) && p in PathsOf(a)
    ensures p in PathsOf(b)
  {
    var k :| 0 <= k < |a| && PathsOf(a)[k] == p;
    assert a[k] in multiset(b);
    var j :| 0 <= j < |b| && b[j] == a[k];
    assert PathsOf(b)[j] == p;
  }
}

=== FILE: config.dfy ===
/** Building the run configuration from the raw `--ext`, `--exclude` and
    `--root` flag values (internal/core/config.go). */
module Configuration {
  import opened Results
  import opened Strs

  /** The resolved inputs of the core. The mode flags (`--count`,
      `--no-combine`, `--tree`, `--copy`) and the output file name are
      copied through unchanged by the source and are not modelled. */
  datatype Config = Config(excludeDirs: seq<string>, fileExtensions: seq<string>, rootDir: string)

  datatype ConfigError =
    | NoExtensions       // `--ext` was the empty string
    | NoValidExtensions  // every comma-separated segment of `--ext` was empty

  /** The `--ext` value that asks for every file. */
  const MatchAllFlag: string := "none"

  /** The extension list standing for "every non-hidden file". */
  const MatchAllMarker: seq<string> := [""]

  /** The directories excluded on every run, after the user's own. */
  const DefaultExcludes: seq<string> := [".git", ".idea", ".vscode", "node_modules", "build", "dist"]

  /** One segment of `--ext` after the in-place pass: empty segments are
      skipped, a leading '.' is added when missing. A non-empty segment
      comes out starting with '.', its text kept after at most one added
      dot, and no comma appears or disappears. */
  function Normalize(segment: string): (r: string)
    ensures r == "" <==> segment == ""
    ensures r != "" ==> r[0] == '.'
    ensures r == segment || r == "." + segment
    ensures ',' in r <==> ',' in segment
  {
    if segment == "" then segment
    else if HasPrefix(segment, ".") then
      assert segment[..1][0] == segment[0];
      segment
    else
      var r := "." + segment;
      assert r[1..] == segment;
      assert ',' in r ==> ',' in r[1..];
      r
  }

  /** The in-place normalisation pass over all segments. */
  function NormalizeAll(segments: seq<string>): (r: seq<string>)
    ensures |r| == |segments|
    ensures forall i :: 0 <= i < |r| ==> r[i] == Normalize(segments[i])
  {
    if segments == [] then [] else [Normalize(segments[0])] + NormalizeAll(segments[1..])
  }

  /** The filtering pass: the non-empty strings, in their order; a list
      without empty strings is kept as it is. */
  function DropEmpty(exts: seq<string>): (r: seq<string>)
    ensures forall e :: e in r <==> e in exts && e != ""
    ensures |r| <= |exts|
    ensures "" !in exts ==> r == exts
  {
    if exts == [] then []
    else
      assert exts == [exts[0]] + exts[1..];
      if exts[0] == "" then DropEmpty(exts[1..])
      else [exts[0]] + DropEmpty(exts[1..])
  }

  /** The filter distributes over concatenation: the kept strings of a
      list are the kept strings of its parts, in the same order and with
      the same repetitions. */
  lemma {:induction false} DropEmptyAppend(a: seq<string>, b: seq<string>)
    ensures DropEmpty(a + b) == DropEmpty(a) + DropEmpty(b)
    decreases |a|
  {
    if a == [] {
      assert a + b == b;
    } else {
      assert (a + b)[1..] == a[1..] + b;
      DropEmptyAppend(a[1..], b);
    }
  }

  /** True when `s` consists of commas only (the empty string included). */
  predicate OnlyCommas(s: string) {
    forall i :: 0 <= i < |s| ==> s[i] == ','
  }

  /** The `--ext` half of NewConfig. "none" gives the match-all marker; an
      empty flag, or one whose segments are all empty, is an error; any
      other flag gives its non-empty segments, in order, each with a
      leading '.'. */
  function ParseExtensions(flag: string): (r: Result<seq<string>, ConfigError>)
    ensures r == Ok(MatchAllMarker) <==> flag == MatchAllFlag
    ensures r == Err(NoExtensions) <==> flag == ""
    ensures r == Err(NoValidExtensions) <==> flag != "" && flag != MatchAllFlag && OnlyCommas(flag)
    ensures r.Ok? && flag != MatchAllFlag ==>
      && |r.value| > 0
      && (forall e :: e in r.value ==> e != "" && e[0] == '.' && ',' !in e)
      && r.value == NormalizeAll(DropEmpty(Split(flag, ',')))
  {
    if flag == MatchAllFlag then Ok(MatchAllMarker)
    else if flag == "" then Err(NoExtensions)
    else
      var segments := Split(flag, ',');
      var exts := DropEmpty(NormalizeAll(segments));
      NormalizeThenDrop(segments);
      AllEmptyIffOnlyCommas(segments, flag);
      NormalizedShape(DropEmpty(segments));
      if |exts| == 0 then Err(NoValidExtensions) else Ok(exts)
  }

  /** Normalising then dropping empties (the source's order) equals
      dropping empties then normalising. */
  lemma {:induction false} NormalizeThenDrop(segments: seq<string>)
    ensures DropEmpty(NormalizeAll(segments)) == NormalizeAll(DropEmpty(segments))
  {
    if segments != [] {
      NormalizeThenDrop(segments[1..]);
      assert NormalizeAll(segments)[1..] == NormalizeAll(segments[1..]);
    }
  }

  /** Normalised non-empty segments without commas are non-empty, start
      with '.', and hold no comma. */
  lemma {:induction false} NormalizedShape(segments: seq<string>)
    requires forall s :: s in segments ==> s != "" && ',' !in s
    ensures forall e :: e in NormalizeAll(segments) ==> e != "" && e[0] == '.' && ',' !in e
  {
    forall e | e in NormalizeAll(segments) ensures e != "" && e[0] == '.' && ',' !in e {
      var i :| 0 <= i < |segments| && NormalizeAll(segments)[i] == e;
      assert segments[i] in segments;
    }
  }

  /** The split segments are all empty exactly when the flag is commas only. */
  lemma {:induction false} AllEmptyIffOnlyCommas(segments: seq<string>, flag: string)
    requires segments == Split(flag, ',')
    ensures DropEmpty(segments) == [] <==> OnlyCommas(flag)
  {
    if DropEmpty(segments) == [] {
      assert forall s :: s in segments ==> s == "";
      JoinOfEmpties(segments);
    } else {
      var s := DropEmpty(segments)[0];
      assert s in segments && s != "";
      var i :| 0 <= i < |segments| && segments[i] == s;
      JoinedCharacters(segments, ',', i, s[0]);
      var k :| 0 <= k < |flag| && flag[k] == s[0];
    }
  }

  lemma {:induction false} JoinOfEmpties(parts: seq<string>)
    requires forall s :: s in parts ==> s == ""
    ensures OnlyCommas(JoinWith(parts, ','))
    decreases |parts|
  {
    if |parts| == 1 {
      assert parts[0] in parts;
    } else if |parts| > 1 {
      assert forall x :: x in parts[1..] ==> x in parts;
      JoinOfEmpties(parts[1..]);
      assert parts[0] in parts;
      assert JoinWith(parts, ',') == [','] + JoinWith(parts[1..], ',');
    }
  }

  /** Normalisation is idempotent: parsing the comma-joined result of a
      successful parse gives the same extensions back. */
  lemma ReparseIsNoOp(flag: string)
    requires ParseExtensions(flag).Ok? && flag != MatchAllFlag
    ensures ParseExtensions(JoinWith(ParseExtensions(flag).value, ',')) == ParseExtensions(flag)
  {
    var exts := ParseExtensions(flag).value;
    var joined := JoinWith(exts, ',');
    assert forall i :: 0 <= i < |exts| ==> exts[i] in exts;
    SplitJoin(exts, ',');
    assert joined[0] == '.' by { JoinStartsWithFirst(exts, ','); }
    NormalizedKept(exts);
    NormalizeThenDrop(exts);
  }

  /** Extensions that already start with '.' are left as they are. */
  lemma NormalizedKept(exts: seq<string>)
    requires forall e :: e in exts ==> e != "" && e[0] == '.'
    ensures NormalizeAll(exts) == exts
  {
    forall i | 0 <= i < |exts| ensures NormalizeAll(exts)[i] == exts[i] {
      assert exts[i] in exts;
      assert HasPrefix(exts[i], ".");
    }
  }

  /** "go" and ".go" give the same extension list: the leading dot of a
      segment is optional. ("none" is the exception, being the match-all
      flag.) */
  lemma LeadingDotOptional(segment: string)
    requires segment != "" && segment != MatchAllFlag && ',' !in segment && segment[0] != '.'
    ensures ParseExtensions(segment) == ParseExtensions("." + segment) == Ok(["." + segment])
  {
    var dotted := "." + segment;
    assert ',' !in dotted;
    SplitJoin([segment], ',');
    SplitJoin([dotted], ',');
    assert Split(segment, ',') == [segment];
    assert Split(dotted, ',') == [dotted];
    assert HasPrefix(dotted, ".");
    assert !HasPrefix(segment, ".");
    assert NormalizeAll([segment]) == [dotted];
    assert NormalizeAll([dotted]) == [dotted];
    assert DropEmpty([dotted]) == [dotted];
  }

  /** The `--exclude` half of NewConfig: the flag's comma-separated
      segments when it is non-empty (empty segments included), followed by
      the defaults. */
  function ExcludeList(flag: string): (r: seq<string>)
    ensures |r| >= |DefaultExcludes| && r[|r| - |DefaultExcludes|..] == DefaultExcludes
    ensures flag == "" ==> r == DefaultExcludes
    ensures flag != "" ==>
      && |r| > |DefaultExcludes|
      && (forall i :: 0 <= i < |r| - |DefaultExcludes| ==> ',' !in r[i])
      && JoinWith(r[..|r| - |DefaultExcludes|], ',') == flag
  {
    var user := if flag != "" then Split(flag, ',') else [];
    assert (user + DefaultExcludes)[..|user|] == user;
    user + DefaultExcludes
  }

  /** The exclude list with empty segments dropped, so that a stray comma
      in the flag no longer adds the empty string (which every path
      contains). Every non-empty entry of the source's list is kept. */
  function ExcludeListIntended(flag: string): (r: seq<string>)
    ensures "" !in r
    ensures |r| >= |DefaultExcludes| && r[|r| - |DefaultExcludes|..] == DefaultExcludes
    ensures forall x :: x in r <==> x in ExcludeList(flag) && x != ""
  {
    var user := if flag != "" then Split(flag, ',') else [];
    assert (DropEmpty(user) + DefaultExcludes)[|DropEmpty(user)|..] == DefaultExcludes;
    assert ExcludeList(flag) == user + DefaultExcludes;
    DropEmpty(user) + DefaultExcludes
  }

  /** NewConfig without the cobra flag lookups. */
  function NewConfig(extFlag: string, excludeFlag: string, root: string): (r: Result<Config, ConfigError>)
    ensures r.Err? <==> extFlag == "" || (extFlag != MatchAllFlag && OnlyCommas(extFlag))
    ensures r.Err? ==> (r.error == NoExtensions <==> extFlag == "")
    ensures r.Ok? ==>
      && r.value.rootDir == root
      && (r.value.fileExtensions == MatchAllMarker <==> extFlag == MatchAllFlag)
      && r.value.fileExtensions != []
      && |r.value.excludeDirs| >= |DefaultExcludes|
      && r.value.excludeDirs[|r.value.excludeDirs| - |DefaultExcludes|..] == DefaultExcludes
    ensures r.Ok? ==>
      && r.value.fileExtensions == ParseExtensions(extFlag).value
      && r.value.excludeDirs == ExcludeList(excludeFlag)
  {
    match ParseExtensions(extFlag)
    case Err(e) => Err(e)
    case Ok(exts) => Ok(Config(ExcludeList(excludeFlag), exts, root))
  }
}

=== FILE: discovery.dfy ===
/** File discovery: the depth-first walk of FindFiles with its exclusion
    and matching rules, and the sort of its result
    (internal/core/files.go). */
module Discovery {
  import opened Results
  import opened Strs
  import opened Paths
  import opened FileTree
  import opened Configuration
  import opened LineCount

  /** One discovered file: its path, its extension and its line count. */
  datatype FileInfo = FileInfo(path: string, ext: string, lineCount: nat)

  /** The records a walk collected and, when it stopped early, the path
      whose listing failed. */
  datatype Walked = Walked(files: seq<FileInfo>, err: Option<string>)

  /** The extension list is the match-all marker. */
  predicate MatchAll(exts: seq<string>) {
    |exts| == 1 && exts[0] == ""
  }

  /** A directory is skipped, with its whole subtree, when its path
      contains any exclude entry. */
  predicate Excluded(path: string, excludeDirs: seq<string>) {
    exists x :: x in excludeDirs && Contains(path, x)
  }

  /** A hidden name starts with '.'. */
  predicate Hidden(name: string) {
    HasPrefix(name, ".")
  }

  /** The file-selection policy of discovery: in match-all mode every file
      whose base name is not hidden, otherwise every file whose extension
      is exactly one of the configured ones. */
  predicate Selects(exts: seq<string>, path: string) {
    if MatchAll(exts) then !Hidden(Base(path)) else Ext(path) in exts
  }

  /** countLines on a file: a count when it can be opened, nothing when it
      cannot. */
  function CountFile(file: Node): Option<nat>
    requires file.File?
  {
    if file.readable then Some(CountLines(file.content)) else None
  }

  /** The loop over the configured extensions: on the first equal one the
      file is counted; a failed count moves on to the next entry, a
      successful one records the file and stops. The count is the same on
      every attempt, so a file gives at most one record however often its
      extension is listed. */
  function MatchExtension(path: string, ext: string, exts: seq<string>, count: Option<nat>): (found: seq<FileInfo>)
    ensures |found| <= 1
    ensures found != [] <==> ext in exts && count.Some?
    ensures found != [] ==> found[0] == FileInfo(path, ext, count.value)
  {
    if exts == [] then []
    else if ext == exts[0] && count.Some? then [FileInfo(path, ext, count.value)]
    else MatchExtension(path, ext, exts[1..], count)
  }

  /** The walk callback on a file. It is recorded exactly when the policy
      selects it and its lines can be counted; its extension is that of
      its path. */
  function VisitFile(path: string, file: Node, exts: seq<string>): (found: seq<FileInfo>)
    requires file.File?
    ensures found == if Selects(exts, path) && file.readable
                     then [FileInfo(path, Ext(path), CountLines(file.content))] else []
  {
    if MatchAll(exts) then
      if Hidden(Base(path)) then []
      else
        match CountFile(file)
        case None => []
        case Some(n) => [FileInfo(path, Ext(path), n)]
    else
      MatchExtension(path, Ext(path), exts, CountFile(file))
  }

  /** filepath.Walk with the FindFiles callback, from the entry `node` at
      `path`. A directory's listing is read before the callback sees it,
      so an unreadable directory stops the walk even when it is excluded;
      an excluded readable directory is skipped without error. */
  function WalkNode(path: string, node: Node, cfg: Config): (w: Walked)
    ensures w.err.Some? ==> node.Dir?
    ensures forall f :: f in w.files ==> Selects(cfg.fileExtensions, f.path) && f.ext == Ext(f.path)
    decreases node
  {
    match node
    case File(_, _, _) => Walked(VisitFile(path, node, cfg.fileExtensions), None)
    case Dir(_, r, cs) =>
      if !r then Walked([], Some(path))
      else if Excluded(path, cfg.excludeDirs) then Walked([], None)
      else WalkChildren(path, cs, cfg)
  }

  /** The walk over the entries of the directory at `dir`, in listing
      order, stopping at the first error. */
  function WalkChildren(dir: string, children: seq<Node>, cfg: Config): (w: Walked)
    ensures w.err.Some? ==> exists i :: 0 <= i < |children| && children[i].Dir?
    ensures forall f :: f in w.files ==> Selects(cfg.fileExtensions, f.path) && f.ext == Ext(f.path)
    decreases children
  {
    if children == [] then Walked([], None)
    else
      var first := WalkNode(Join(dir, children[0].name), children[0], cfg);
      if first.err.Some? then first
      else
        var rest := WalkChildren(dir, children[1..], cfg);
        assert rest.err.Some? ==> exists i :: 0 <= i < |children| && children[i].Dir? by {
          if rest.err.Some? {
            var i :| 0 <= i < |children[1..]| && children[1..][i].Dir?;
            assert children[i + 1].Dir?;
          }
        }
        Walked(first.files + rest.files, rest.err)
  }

  /** The paths of the records, in order. */
  function PathsOf(files: seq<FileInfo>): (paths: seq<string>)
    ensures |paths| == |files| && forall i :: 0 <= i < |files| ==> paths[i] == files[i].path
  {
    seq(|files|, i requires 0 <= i < |files| => files[i].path)
  }

  lemma PathsOfAppend(a: seq<FileInfo>, b: seq<FileInfo>)
    ensures PathsOf(a + b) == PathsOf(a) + PathsOf(b)
  {
  }

  lemma PathsOfLast(files: seq<FileInfo>)
    requires files != []
    ensures PathsOf(files) == PathsOf(files[..|files| - 1]) + [files[|files| - 1].path]
  {
    var n := |files| - 1;
    assert files == files[..n] + [files[n]];
    PathsOfAppend(files[..n], [files[n]]);
  }

  /** The sort.Slice order: by extension, then by path. */
  predicate Before(a: FileInfo, b: FileInfo) {
    if a.ext != b.ext then Less(a.ext, b.ext) else Less(a.path, b.path)
  }

  /** `a` may stand before `b` in a sorted list. */
  predicate Leq(a: FileInfo, b: FileInfo) {
    !Before(b, a)
  }

  predicate Sorted(fs: seq<FileInfo>) {
    forall i, j :: 0 <= i < j < |fs| ==> Leq(fs[i], fs[j])
  }

  lemma LeqTransitive(a: FileInfo, b: FileInfo, c: FileInfo)
    requires Leq(a, b) && Leq(b, c)
    ensures Leq(a, c)
  {
    LessTotal(a.ext, b.ext);
    LessTotal(b.ext, c.ext);
    LessTotal(a.path, b.path);
    LessTotal(b.path, c.path);
    LessTotal(a.ext, c.ext);
    if a.ext != c.ext && Less(c.ext, a.ext) {
      if a.ext == b.ext {
        LessIrreflexive(a.ext);
      } else if b.ext == c.ext {
        LessIrreflexive(a.ext);
      } else {
        LessTransitive(a.ext, b.ext, c.ext);
        LessTransitive(a.ext, c.ext, a.ext);
        LessIrreflexive(a.ext);
      }
    } else if a.ext == c.ext && Less(c.path, a.path) {
      if a.ext != b.ext {
        LessTransitive(a.ext, b.ext, a.ext);
        LessIrreflexive(a.ext);
      } else {
        LessTransitive(a.path, b.path, c.path);
        LessTransitive(a.path, c.path, a.path);
        LessIrreflexive(a.path);
      }
    }
  }

  lemma BeforeIsLeq(a: FileInfo, b: FileInfo)
    requires Before(a, b)
    ensures Leq(a, b)
  {
    if a.ext != b.ext {
      if Less(b.ext, a.ext) {
        LessTransitive(a.ext, b.ext, a.ext);
        LessIrreflexive(a.ext);
      }
    } else if Less(b.path, a.path) {
      LessTransitive(a.path, b.path, a.path);
      LessIrreflexive(a.path);
    }
  }

  /** `x` placed into a sorted list. */
  function Insert(x: FileInfo, fs: seq<FileInfo>): (r: seq<FileInfo>)
    requires Sorted(fs)
    ensures Sorted(r) && multiset(r) == multiset(fs) + multiset{x}
  {
    if fs == [] then [x]
    else if Before(fs[0], x) then
      var tail := Insert(x, fs[1..]);
      assert fs == [fs[0]] + fs[1..];
      BeforeIsLeq(fs[0], x);
      HeadBelowInsert(fs, x, tail);
      SortedCons(fs[0], tail);
      [fs[0]] + tail
    else
      assert fs == [fs[0]] + fs[1..];
      BelowSorted(x, fs);
      SortedCons(x, fs);
      [x] + fs
  }

  lemma SortedCons(h: FileInfo, t: seq<FileInfo>)
    requires Sorted(t) && forall y :: y in t ==> Leq(h, y)
    ensures Sorted([h] + t)
  {
    var r := [h] + t;
    forall i, j | 0 <= i < j < |r| ensures Leq(r[i], r[j]) {
      assert r[j] == t[j - 1];
      if i > 0 {
        assert r[i] == t[i - 1];
      } else {
        assert t[j - 1] in t;
      }
    }
  }

  /** The head of a sorted list stays below everything once `x`, which it
      does not exceed, is inserted into the rest. */
  lemma HeadBelowInsert(fs: seq<FileInfo>, x: FileInfo, tail: seq<FileInfo>)
    requires Sorted(fs) && fs != [] && Leq(fs[0], x)
    requires multiset(tail) == multiset(fs[1..]) + multiset{x}
    ensures forall y :: y in tail ==> Leq(fs[0], y)
  {
    forall y | y in tail ensures Leq(fs[0], y) {
      assert y in multiset(tail);
      if y != x {
        assert y in multiset(fs[1..]);
        var k :| 0 <= k < |fs[1..]| && fs[1..][k] == y;
        assert fs[k + 1] == y;
      }
    }
  }

  /** An element not above the head of a sorted list is below all of it. */
  lemma BelowSorted(x: FileInfo, fs: seq<FileInfo>)
    requires Sorted(fs) && fs != [] && Leq(x, fs[0])
    ensures forall y :: y in fs ==> Leq(x, y)
  {
    forall y | y in fs ensures Leq(x, y) {
      var j :| 0 <= j < |fs| && fs[j] == y;
      if j > 0 {
        LeqTransitive(x, fs[0], fs[j]);
      }
    }
  }

  /** The records in the sort.Slice order: sorted, and a permutation of
      the input. */
  function SortFiles(fs: seq<FileInfo>): (r: seq<FileInfo>)
    ensures Sorted(r) && multiset(r) == multiset(fs)
  {
    if fs == [] then []
    else
      assert fs == [fs[0]] + fs[1..];
      Insert(fs[0], SortFiles(fs[1..]))
  }

  /** FindFiles: the walk from the configured root, its records sorted by
      extension then path, and the walk's error. */
  function FindFiles(cfg: Config, root: Node): (r: Walked)
    ensures Sorted(r.files)
    ensures multiset(r.files) == multiset(WalkNode(cfg.rootDir, root, cfg).files)
    ensures r.err == WalkNode(cfg.rootDir, root, cfg).err
  {
    var w := WalkNode(cfg.rootDir, root, cfg);
    Walked(SortFiles(w.files), w.err)
  }

  /** An entry discovery records when a walk reaches it: a readable file
      the policy selects, with no enclosing directory excluded. */
  predicate Admitted(e: Entry, cfg: Config) {
    && e.node.File?
    && e.node.readable
    && Selects(cfg.fileExtensions, e.path)
    && forall i :: 0 <= i < |e.above| ==> !Excluded(e.above[i].path, cfg.excludeDirs)
  }

  function RecordOf(e: Entry): FileInfo
    requires e.node.File?
  {
    FileInfo(e.path, Ext(e.path), CountLines(e.node.content))
  }

  /** The records of the admitted entries, in order. */
  function AdmittedRecords(es: seq<Entry>, cfg: Config): (r: seq<FileInfo>)
    ensures forall f :: f in r ==> exists e :: e in es && Admitted(e, cfg) && f == RecordOf(e)
  {
    if es == [] then []
    else
      var rest := AdmittedRecords(es[1..], cfg);
      assert forall e :: e in es[1..] ==> e in es;
      if Admitted(es[0], cfg) then [RecordOf(es[0])] + rest else rest
  }

  lemma {:induction false} AdmittedAppend(a: seq<Entry>, b: seq<Entry>, cfg: Config)
    ensures AdmittedRecords(a + b, cfg) == AdmittedRecords(a, cfg) + AdmittedRecords(b, cfg)
    decreases |a|
  {
    if a != [] {
      assert (a + b)[0] == a[0];
      assert (a + b)[1..] == a[1..] + b;
      AdmittedAppend(a[1..], b, cfg);
    } else {
      assert a + b == b;
    }
  }

  lemma {:induction false} NoneAdmitted(es: seq<Entry>, cfg: Config)
    requires forall e :: e in es ==> !Admitted(e, cfg)
    ensures AdmittedRecords(es, cfg) == []
    decreases |es|
  {
    if es != [] {
      assert es[0] in es;
      assert forall e :: e in es[1..] ==> e in es;
      NoneAdmitted(es[1..], cfg);
    }
  }

  /** The walk from an entry whose enclosing directories are not excluded
      returns a prefix of the admitted records below it, and all of them
      when it does not stop early. */
  lemma {:induction false} WalkAdmits(path: string, node: Node, above: seq<Step>, cfg: Config)
    requires forall i :: 0 <= i < |above| ==> !Excluded(above[i].path, cfg.excludeDirs)
    ensures WalkNode(path, node, cfg).files <= AdmittedRecords(Entries(path, node, above), cfg)
    ensures WalkNode(path, node, cfg).err.None? ==>
      WalkNode(path, node, cfg).files == AdmittedRecords(Entries(path, node, above), cfg)
    decreases node
  {
    var es := Entries(path, node, above);
    match node
    case File(_, _, _) =>
      assert es == [Entry(path, node, above)];
      assert AdmittedRecords(es, cfg) == AdmittedRecords(es[1..], cfg) || AdmittedRecords(es, cfg) == [RecordOf(es[0])];
    case Dir(_, r, cs) =>
      var step := Step(path, r);
      var below := ChildEntries(path, cs, above + [step]);
      assert es == [es[0]] + below;
      AdmittedAppend([es[0]], below, cfg);
      assert AdmittedRecords([es[0]], cfg) == [];
      if r && Excluded(path, cfg.excludeDirs) {
        forall e | e in below ensures !Admitted(e, cfg) {
          assert e in es[1..];
          assert e.above[|above|] == step;
        }
        NoneAdmitted(below, cfg);
      } else if r {
        ChildrenAdmit(path, cs, above + [step], cfg);
      }
  }

  lemma {:induction false} ChildrenAdmit(dir: string, children: seq<Node>, above: seq<Step>, cfg: Config)
    requires forall i :: 0 <= i < |above| ==> !Excluded(above[i].path, cfg.excludeDirs)
    ensures WalkChildren(dir, children, cfg).files <= AdmittedRecords(ChildEntries(dir, children, above), cfg)
    ensures WalkChildren(dir, children, cfg).err.None? ==>
      WalkChildren(dir, children, cfg).files == AdmittedRecords(ChildEntries(dir, children, above), cfg)
    decreases children
  {
    if children != [] {
      var path := Join(dir, children[0].name);
      var head := Entries(path, children[0], above);
      var tail := ChildEntries(dir, children[1..], above);
      AdmittedAppend(head, tail, cfg);
      WalkAdmits(path, children[0], above, cfg);
      ChildrenAdmit(dir, children[1..], above, cfg);
    }
  }

  /** A directory on the way down: its listing was read and its path is
      not excluded. */
  predicate Passable(s: Step, cfg: Config) {
    s.readable && !Excluded(s.path, cfg.excludeDirs)
  }

  /** An entry that stops the walk: a directory whose listing cannot be
      read, reached through passable directories only. Being excluded
      itself does not save it, since the listing is read before the
      callback looks at the path. */
  predicate Blocks(e: Entry, cfg: Config) {
    e.node.Dir? && !e.node.readable && forall i :: 0 <= i < |e.above| ==> Passable(e.above[i], cfg)
  }

  /** The position of the first blocking entry, or the length when there
      is none. */
  function FirstBlock(es: seq<Entry>, cfg: Config): (k: nat)
    ensures k <= |es|
    ensures forall j :: 0 <= j < k ==> !Blocks(es[j], cfg)
    ensures k < |es| ==> Blocks(es[k], cfg)
    decreases |es|
  {
    if es == [] then 0 else if Blocks(es[0], cfg) then 0 else 1 + FirstBlock(es[1..], cfg)
  }

  /** The first blocking entry of a concatenation is the first of the
      first part, or else the first of the second part. */
  lemma FirstBlockAppend(a: seq<Entry>, b: seq<Entry>, cfg: Config)
    ensures FirstBlock(a + b, cfg) == if FirstBlock(a, cfg) < |a| then FirstBlock(a, cfg) else |a| + FirstBlock(b, cfg)
  {
    var ka := FirstBlock(a, cfg);
    if ka < |a| {
      assert (a + b)[ka] == a[ka];
    } else {
      var kb := FirstBlock(b, cfg);
      if kb < |b| {
        assert (a + b)[|a| + kb] == b[kb];
      }
    }
  }

  /** The walk from an entry reached through passable directories stops
      exactly at the first blocking entry at or below it, reporting that
      entry's path, and returns the admitted records before it, in order.
      Without a blocking entry it completes and returns all of them. */
  lemma {:induction false} WalkStopsAtUnreadable(path: string, node: Node, above: seq<Step>, cfg: Config)
    requires forall i :: 0 <= i < |above| ==> Passable(above[i], cfg)
    ensures var es := Entries(path, node, above);
      var k := FirstBlock(es, cfg);
      && WalkNode(path, node, cfg).err == (if k < |es| then Some(es[k].path) else None)
      && WalkNode(path, node, cfg).files == AdmittedRecords(es[..k], cfg)
    decreases node
  {
    var es := Entries(path, node, above);
    var k := FirstBlock(es, cfg);
    match node
    case File(_, _, _) =>
      assert es == [Entry(path, node, above)];
      assert k == 1;
      assert es[..1] == es;
      assert AdmittedRecords(es, cfg) == if Admitted(es[0], cfg) then [RecordOf(es[0])] else [];
    case Dir(_, r, cs) =>
      if !r {
        assert Blocks(es[0], cfg);
        assert es[..0] == [];
      } else if Excluded(path, cfg.excludeDirs) {
        ExcludedBlocksNothing(path, node, above, cfg);
        assert es[..|es|] == es;
      } else {
        var step := Step(path, r);
        var below := ChildEntries(path, cs, above + [step]);
        assert es == [es[0]] + below;
        ChildrenStopAtUnreadable(path, cs, above + [step], cfg);
        DirStops(es[0], below, cfg);
      }
  }

  /** A readable, excluded directory is skipped: nothing at or below it
      blocks, and nothing below it is admitted. */
  lemma ExcludedBlocksNothing(path: string, node: Node, above: seq<Step>, cfg: Config)
    requires node.Dir? && node.readable && Excluded(path, cfg.excludeDirs)
    ensures var es := Entries(path, node, above);
      FirstBlock(es, cfg) == |es| && AdmittedRecords(es, cfg) == []
  {
    var es := Entries(path, node, above);
    var step := Step(path, node.readable);
    var below := ChildEntries(path, node.children, above + [step]);
    assert es == [es[0]] + below;
    forall e | e in below ensures !Admitted(e, cfg) && !Blocks(e, cfg) {
      assert e in es[1..];
      assert e.above[|above|] == step;
    }
    NoneAdmitted(below, cfg);
    AdmittedAppend([es[0]], below, cfg);
    assert AdmittedRecords([es[0]], cfg) == [];
  }

  /** A readable directory that is not excluded passes on the result of
      the walk over its entries. */
  lemma DirStops(head: Entry, below: seq<Entry>, cfg: Config)
    requires head.node.Dir? && head.node.readable
    ensures var k := FirstBlock(below, cfg);
      && FirstBlock([head] + below, cfg) == 1 + k
      && (k < |below| ==> ([head] + below)[1 + k] == below[k])
      && AdmittedRecords(([head] + below)[..1 + k], cfg) == AdmittedRecords(below[..k], cfg)
  {
    var k := FirstBlock(below, cfg);
    FirstBlockAppend([head], below, cfg);
    assert FirstBlock([head], cfg) == 1;
    assert ([head] + below)[..1 + k] == [head] + below[..k];
    AdmittedAppend([head], below[..k], cfg);
    assert AdmittedRecords([head], cfg) == [];
  }

  lemma {:induction false} ChildrenStopAtUnreadable(dir: string, children: seq<Node>, above: seq<Step>, cfg: Config)
    requires forall i :: 0 <= i < |above| ==> Passable(above[i], cfg)
    ensures var es := ChildEntries(dir, children, above);
      var k := FirstBlock(es, cfg);
      && WalkChildren(dir, children, cfg).err == (if k < |es| then Some(es[k].path) else None)
      && WalkChildren(dir, children, cfg).files == AdmittedRecords(es[..k], cfg)
    decreases children
  {
    if children == [] {
      assert ChildEntries(dir, children, above)[..0] == [];
    } else {
      var path := Join(dir, children[0].name);
      var head := Entries(path, children[0], above);
      var tail := ChildEntries(dir, children[1..], above);
      assert ChildEntries(dir, children, above) == head + tail;
      var first := WalkNode(path, children[0], cfg);
      var rest := WalkChildren(dir, children[1..], cfg);
      assert WalkChildren(dir, children, cfg) == if first.err.Some? then first else Walked(first.files + rest.files, rest.err);
      WalkStopsAtUnreadable(path, children[0], above, cfg);
      ChildrenStopAtUnreadable(dir, children[1..], above, cfg);
      CombineStops(first, rest, head, tail, cfg);
    }
  }

  /** The walk over a first entry and then its later siblings stops at the
      first blocking entry of both together. */
  lemma CombineStops(first: Walked, rest: Walked, head: seq<Entry>, tail: seq<Entry>, cfg: Config)
    requires var kh := FirstBlock(head, cfg);
      first.err == (if kh < |head| then Some(head[kh].path) else None) && first.files == AdmittedRecords(head[..kh], cfg)
    requires var kt := FirstBlock(tail, cfg);
      rest.err == (if kt < |tail| then Some(tail[kt].path) else None) && rest.files == AdmittedRecords(tail[..kt], cfg)
    ensures var w := if first.err.Some? then first else Walked(first.files + rest.files, rest.err);
      var k := FirstBlock(head + tail, cfg);
      && w.err == (if k < |head + tail| then Some((head + tail)[k].path) else None)
      && w.files == AdmittedRecords((head + tail)[..k], cfg)
  {
    SiblingsStop(head, tail, cfg);
    if first.err.None? {
      assert head[..|head|] == head;
    }
  }

  /** How the first blocking entry and the records before it split over
      an entry's subtree and the entries after it. */
  lemma SiblingsStop(head: seq<Entry>, tail: seq<Entry>, cfg: Config)
    ensures var kh := FirstBlock(head, cfg);
      var kt := FirstBlock(tail, cfg);
      var k := FirstBlock(head + tail, cfg);
      && (kh < |head| ==> k == kh && (head + tail)[k] == head[k] && (head + tail)[..k] == head[..k])
      && (kh == |head| ==> k == |head| + kt && (kt < |tail| ==> (head + tail)[k] == tail[kt])
                           && AdmittedRecords((head + tail)[..k], cfg) == AdmittedRecords(head, cfg) + AdmittedRecords(tail[..kt], cfg))
  {
    if FirstBlock(head, cfg) < |head| {
      StopInHead(head, tail, cfg);
    } else {
      StopInTail(head, tail, cfg);
    }
  }

  lemma StopInHead(head: seq<Entry>, tail: seq<Entry>, cfg: Config)
    requires FirstBlock(head, cfg) < |head|
    ensures var kh := FirstBlock(head, cfg);
      var k := FirstBlock(head + tail, cfg);
      k == kh && (head + tail)[k] == head[k] && (head + tail)[..k] == head[..k]
  {
    var kh := FirstBlock(head, cfg);
    FirstBlockAppend(head, tail, cfg);
    assert (head + tail)[..kh] == head[..kh];
  }

  lemma StopInTail(head: seq<Entry>, tail: seq<Entry>, cfg: Config)
    requires FirstBlock(head, cfg) == |head|
    ensures var kt := FirstBlock(tail, cfg);
      var k := FirstBlock(head + tail, cfg);
      && k == |head| + kt && (kt < |tail| ==> (head + tail)[k] == tail[kt])
      && AdmittedRecords((head + tail)[..k], cfg) == AdmittedRecords(head, cfg) + AdmittedRecords(tail[..kt], cfg)
  {
    var kt := FirstBlock(tail, cfg);
    FirstBlockAppend(head, tail, cfg);
    assert (head + tail)[..|head| + kt] == head + tail[..kt];
    AdmittedAppend(head, tail[..kt], cfg);
  }

  /** FindFiles stops at the first blocking entry of the tree, reporting
      its path, and returns the admitted records before it, sorted. */
  lemma FindFilesStopsAtUnreadable(cfg: Config, root: Node)
    ensures var es := Entries(cfg.rootDir, root, []);
      var k := FirstBlock(es, cfg);
      && FindFiles(cfg, root).err == (if k < |es| then Some(es[k].path) else None)
      && multiset(FindFiles(cfg, root).files) == multiset(AdmittedRecords(es[..k], cfg))
  {
    WalkStopsAtUnreadable(cfg.rootDir, root, [], cfg);
  }

  /** Every record FindFiles returns, complete run or not, is the record of
      an admitted entry: a selected, countable file with no excluded
      directory above it. */
  lemma FoundAreAdmitted(cfg: Config, root: Node)
    ensures forall f :: f in FindFiles(cfg, root).files ==>
      exists e :: e in Entries(cfg.rootDir, root, []) && Admitted(e, cfg) && f == RecordOf(e)
  {
    var w := WalkNode(cfg.rootDir, root, cfg);
    var all := AdmittedRecords(Entries(cfg.rootDir, root, []), cfg);
    WalkAdmits(cfg.rootDir, root, [], cfg);
    forall f | f in FindFiles(cfg, root).files
      ensures exists e :: e in Entries(cfg.rootDir, root, []) && Admitted(e, cfg) && f == RecordOf(e)
    {
      assert f in multiset(w.files);
      assert f in w.files;
      var k :| 0 <= k < |w.files| && w.files[k] == f;
      assert all[k] == f;
      assert f in all;
    }
  }

  /** A run that does not stop early returns exactly one record per
      admitted entry, as a permutation, sorted. */
  lemma FindFilesComplete(cfg: Config, root: Node)
    requires FindFiles(cfg, root).err.None?
    ensures multiset(FindFiles(cfg, root).files) == multiset(AdmittedRecords(Entries(cfg.rootDir, root, []), cfg))
    ensures Sorted(FindFiles(cfg, root).files)
  {
    WalkAdmits(cfg.rootDir, root, [], cfg);
  }

  /** A walk over a readable tree never stops early. */
  lemma ReadableWalkCompletes(path: string, node: Node, cfg: Config)
    requires AllReadable(node)
    ensures WalkNode(path, node, cfg).err.None?
  {
    var es := Entries(path, node, []);
    WalkStopsAtUnreadable(path, node, [], cfg);
    EntriesReadable(path, node, []);
  }
}

=== FILE: filetree.dfy ===
/** The directory tree both walks run over, standing in for the file
    system, and the flat list of every entry in it. */
module FileTree {
  import opened Paths

  /** A directory entry. For a file, `readable` says whether it can be
      opened; for a directory, whether its listing can be read. Children
      are in listing order. */
  datatype Node =
    | File(name: string, content: string, readable: bool)
    | Dir(name: string, readable: bool, children: seq<Node>)

  /** Every entry below `node` has a name the operating system could
      report. The root's own name is not used: its path is given instead. */
  predicate WellNamed(node: Node) {
    match node
    case File(_, _, _) => true
    case Dir(_, _, cs) => forall i :: 0 <= i < |cs| ==> ValidName(cs[i].name) && WellNamed(cs[i])
  }

  /** Every file and directory at or below `node` can be opened. */
  predicate AllReadable(node: Node) {
    match node
    case File(_, _, r) => r
    case Dir(_, r, cs) => r && forall i :: 0 <= i < |cs| ==> AllReadable(cs[i])
  }

  /** An enclosing directory of an entry: its path and readability. */
  datatype Step = Step(path: string, readable: bool)

  /** An entry of the tree with its path and the directories enclosing it,
      outermost first; its depth is `|above|`. */
  datatype Entry = Entry(path: string, node: Node, above: seq<Step>)

  /** Every entry at or below `node`, in depth-first pre-order, whether or
      not a walk would reach it. */
  function Entries(path: string, node: Node, above: seq<Step>): (es: seq<Entry>)
    ensures |es| >= 1 && es[0] == Entry(path, node, above)
    ensures forall e :: e in es ==> above <= e.above
    ensures forall e :: e in es[1..] ==>
      node.Dir? && |e.above| > |above| && e.above[|above|] == Step(path, node.readable)
    decreases node
  {
    match node
    case File(_, _, _) => [Entry(path, node, above)]
    case Dir(_, r, cs) =>
      var below := ChildEntries(path, cs, above + [Step(path, r)]);
      assert ([Entry(path, node, above)] + below)[1..] == below;
      [Entry(path, node, above)] + below
  }

  /** The entries of each child of the directory at `dir`, in order. */
  function ChildEntries(dir: string, children: seq<Node>, above: seq<Step>): (es: seq<Entry>)
    ensures forall e :: e in es ==> above <= e.above
    decreases children
  {
    if children == [] then []
    else Entries(Join(dir, children[0].name), children[0], above) + ChildEntries(dir, children[1..], above)
  }

  /** The path of an entry below the root is its name joined to the path of
      the directory holding it. */
  predicate Linked(e: Entry) {
    |e.above| > 0 ==> ValidName(e.node.name) && e.path == Join(e.above[|e.above| - 1].path, e.node.name)
  }

  lemma {:induction false} EntriesLinked(path: string, node: Node, above: seq<Step>)
    requires WellNamed(node) && Linked(Entry(path, node, above))
    ensures forall e :: e in Entries(path, node, above) ==> Linked(e)
    decreases node
  {
    if node.Dir? {
      ChildEntriesLinked(path, node.children, above + [Step(path, node.readable)]);
    }
  }

  lemma {:induction false} ChildEntriesLinked(dir: string, children: seq<Node>, above: seq<Step>)
    requires |above| > 0 && above[|above| - 1].path == dir
    requires forall i :: 0 <= i < |children| ==> ValidName(children[i].name) && WellNamed(children[i])
    ensures forall e :: e in ChildEntries(dir, children, above) ==> Linked(e)
    decreases children
  {
    if children != [] {
      EntriesLinked(Join(dir, children[0].name), children[0], above);
      ChildEntriesLinked(dir, children[1..], above);
    }
  }

  /** Every entry and enclosing directory of a readable tree is readable. */
  predicate ReadableEntry(e: Entry) {
    e.node.readable && forall i :: 0 <= i < |e.above| ==> e.above[i].readable
  }

  lemma {:induction false} EntriesReadable(path: string, node: Node, above: seq<Step>)
    requires AllReadable(node) && forall i :: 0 <= i < |above| ==> above[i].readable
    ensures forall e :: e in Entries(path, node, above) ==> ReadableEntry(e)
    decreases node
  {
    if node.Dir? {
      ChildEntriesReadable(path, node.children, above + [Step(path, node.readable)]);
    }
  }

  lemma {:induction false} ChildEntriesReadable(dir: string, children: seq<Node>, above: seq<Step>)
    requires forall i :: 0 <= i < |children| ==> AllReadable(children[i])
    requires forall i :: 0 <= i < |above| ==> above[i].readable
    ensures forall e :: e in ChildEntries(dir, children, above) ==> ReadableEntry(e)
    decreases children
  {
    if children != [] {
      EntriesReadable(Join(dir, children[0].name), children[0], above);
      ChildEntriesReadable(dir, children[1..], above);
    }
  }
}

=== FILE: findings.dfy ===
/** Three places where the source does not do what it evidently means to:
    the tree ignores the match-all mode, a file root gives an empty tree,
    and a stray comma in the exclude flag excludes every directory. Each is
    shown on a concrete input, next to the corrected definition and the
    property it keeps.

    The concrete walks are spelled out one step per lemma (the root, then
    each child, then the names and paths involved). A single lemma that
    unfolds a whole walk over a literal tree gives the solver all of it at
    once; the small steps keep each proof short. */
module Findings {
  import opened Results
  import opened Strs
  import opened LineCount
  import opened Paths
  import opened FileTree
  import opened Configuration
  import opened Discovery
  import opened DirectoryTree
  import opened Agreement

  /** A root directory "r" holding one readable Markdown file. */
  const MarkdownOnly: Node := Dir("r", true, [File("visible.md", "x\n", true)])

  /** Match-all mode ("-e none"): FindFiles returns the Markdown file, but
      the source's tree compares its extension with the marker "" and
      shows the root alone. */
  lemma MatchAllTreeOmitsFiles()
    ensures FindFiles(Config(DefaultExcludes, MatchAllMarker, "r"), MarkdownOnly).files == [FileInfo("r/visible.md", ".md", 1)]
    ensures FilePaths(Walk("r", MarkdownOnly, 0, DefaultExcludes, ExtensionIn(MatchAllMarker))) == []
    ensures GenerateDirectoryTree("r", MarkdownOnly, DefaultExcludes, MatchAllMarker) == "r"
  {
    MarkdownFound();
    MarkdownNotListed();
  }

  /** No exclude entry fits inside a shorter path. */
  lemma ShortPathNotExcluded(path: string, excludeDirs: seq<string>)
    requires forall x :: x in excludeDirs ==> |path| < |x|
    ensures !Excluded(path, excludeDirs)
  {
    forall x | x in excludeDirs ensures !Contains(path, x) {
      assert forall i :: !OccursAt(path, x, i);
    }
  }

  lemma MarkdownFacts()
    ensures Join("r", "visible.md") == "r/visible.md"
    ensures Ext("visible.md") == ".md"
    ensures Ext("r/visible.md") == ".md"
    ensures Base("r/visible.md") == "visible.md"
    ensures Base("r") == "r"
    ensures CountLines("x\n") == 1
  {
    MarkdownPath();
    MarkdownNames("r", "visible.md");
  }

  lemma MarkdownNames(dir: string, n: string)
    requires dir == "r" && n == "visible.md"
    ensures Ext(n) == ".md" && Ext(Join(dir, n)) == ".md"
    ensures Base(Join(dir, n)) == n && Base(dir) == dir
  {
    ExtOfJoin(dir, n);
    BaseOfJoin(dir, n);
    BaseOfJoin("", dir);
    CleanName(dir);
    MarkdownExt(n);
  }

  lemma MarkdownExt(n: string)
    requires n == "visible.md"
    ensures Ext(n) == ".md"
  {
    assert ExtScan(n, 10) == ExtScan(n, 9) == ExtScan(n, 8) == n[7..];
  }

  lemma MarkdownPath()
    ensures Join("r", "visible.md") == "r/visible.md"
  {
    MarkdownValid(["r"], "visible.md");
    assert JoinWith(["r"], '/') == "r";
    JoinPlainDir(["r"], "visible.md");
  }

  lemma MarkdownValid(parts: seq<string>, n: string)
    requires parts == ["r"] && n == "visible.md"
    ensures PlainParts(parts) && ValidName(n)
  {
    assert forall i :: 0 <= i < |n| ==> n[i] != '/';
    assert ValidName(parts[0]);
  }

  lemma MarkdownFound()
    ensures FindFiles(Config(DefaultExcludes, MatchAllMarker, "r"), MarkdownOnly).files == [FileInfo("r/visible.md", ".md", 1)]
  {
    var cfg := Config(DefaultExcludes, MatchAllMarker, "r");
    MarkdownRootWalk(cfg);
    SortOne(FileInfo("r/visible.md", ".md", 1));
  }

  lemma MarkdownRootWalk(cfg: Config)
    requires cfg == Config(DefaultExcludes, MatchAllMarker, "r")
    ensures WalkNode("r", MarkdownOnly, cfg) == Walked([FileInfo("r/visible.md", ".md", 1)], None)
  {
    ShortPathNotExcluded("r", DefaultExcludes);
    MarkdownVisited(cfg);
    assert WalkChildren("r", MarkdownOnly.children[1..], cfg) == Walked([], None);
  }

  lemma SortOne(f: FileInfo)
    ensures SortFiles([f]) == [f]
  {
    assert [f][1..] == [];
  }

  lemma MarkdownVisited(cfg: Config)
    requires cfg == Config(DefaultExcludes, MatchAllMarker, "r")
    ensures WalkNode(Join("r", "visible.md"), MarkdownOnly.children[0], cfg) == Walked([FileInfo("r/visible.md", ".md", 1)], None)
  {
    MarkdownFacts();
    assert !Hidden("visible.md");
    assert VisitFile("r/visible.md", MarkdownOnly.children[0], MatchAllMarker) == [FileInfo("r/visible.md", ".md", 1)];
  }

  lemma MarkdownNotListed()
    ensures FilePaths(Walk("r", MarkdownOnly, 0, DefaultExcludes, ExtensionIn(MatchAllMarker))) == []
    ensures GenerateDirectoryTree("r", MarkdownOnly, DefaultExcludes, MatchAllMarker) == "r"
  {
    MarkdownFacts();
    assert !Lists(ExtensionIn(MatchAllMarker), "visible.md");
    var lines := Walk("r", MarkdownOnly, 0, DefaultExcludes, ExtensionIn(MatchAllMarker));
    assert WalkEntries("r", MarkdownOnly.children, 0, DefaultExcludes, ExtensionIn(MatchAllMarker)) == [];
    assert lines == [TreeLine(0, "r", "r", false)];
  }

  /** With the discovery policy, and a file root drawn as itself, the tree
      lists the same files as FindFiles in every mode, match-all included,
      whether the root is a directory or a file. */
  lemma IntendedTreeMatchesFindFiles(cfg: Config, root: Node)
    requires AllReadable(root) && WellNamed(root)
    requires root.Dir? ==> !Excluded(cfg.rootDir, cfg.excludeDirs)
    ensures FindFiles(cfg, root).err.None?
    ensures forall p :: p in FilePaths(RootLines(cfg.rootDir, root, cfg.excludeDirs, AsDiscovery(cfg.fileExtensions)))
                    <==> p in PathsOf(FindFiles(cfg, root).files)
  {
    if root.Dir? {
      TreeAgreesWithWalk(cfg, root, AsDiscovery(cfg.fileExtensions));
      SamePathsAfterSort(cfg, root);
    } else {
      FileRootFound(cfg, root);
    }
  }

  /** A readable file given as the root is walked as a single file: it is
      recorded, under the root path as given, exactly when the policy
      selects it. */
  lemma FileRootFound(cfg: Config, root: Node)
    requires root.File? && root.readable
    ensures FindFiles(cfg, root) == Walked(if Selects(cfg.fileExtensions, cfg.rootDir)
      then [FileInfo(cfg.rootDir, Ext(cfg.rootDir), CountLines(root.content))] else [], None)
  {
    var w := WalkNode(cfg.rootDir, root, cfg).files;
    if w != [] {
      SortOne(w[0]);
    }
  }

  /** A file given as the root ("-r main.go -e go"): FindFiles records it,
      but the source's tree cannot list a file as a directory and comes
      out empty, the root's own line included. */
  lemma FileRootTreeEmpty(cfg: Config, root: Node)
    requires root.File? && root.readable && Selects(cfg.fileExtensions, cfg.rootDir)
    ensures FindFiles(cfg, root).files == [FileInfo(cfg.rootDir, Ext(cfg.rootDir), CountLines(root.content))]
    ensures GenerateDirectoryTree(cfg.rootDir, root, cfg.excludeDirs, cfg.fileExtensions) == ""
  {
    FileRootFound(cfg, root);
  }

  /** The corrected tree draws a selected file root as one line naming it,
      which FindFiles also records. */
  lemma FileRootTreeIntended(cfg: Config, root: Node)
    requires root.File? && root.readable && Selects(cfg.fileExtensions, cfg.rootDir)
    ensures GenerateDirectoryTreeIntended(cfg.rootDir, root, cfg.excludeDirs, cfg.fileExtensions) == Base(cfg.rootDir)
    ensures FilePaths(RootLines(cfg.rootDir, root, cfg.excludeDirs, AsDiscovery(cfg.fileExtensions))) == PathsOf(FindFiles(cfg, root).files)
  {
    FileRootFound(cfg, root);
  }

  /** "-x vendor," yields the empty exclude entry, which every path
      contains, so the root itself is skipped and nothing is found. */
  lemma TrailingCommaExcludesEverything(exts: seq<string>, rootDir: string, root: Node)
    requires root.Dir? && root.readable
    ensures ExcludeList("vendor,") == ["vendor", ""] + DefaultExcludes
    ensures forall path :: Excluded(path, ExcludeList("vendor,"))
    ensures FindFiles(Config(ExcludeList("vendor,"), exts, rootDir), root) == Walked([], None)
  {
    SplitTrailingComma();
    var excl := ExcludeList("vendor,");
    assert "" in excl;
    forall path ensures Excluded(path, excl) {
      assert HasPrefix(path, "");
    }
    assert WalkNode(rootDir, root, Config(excl, exts, rootDir)) == Walked([], None);
  }

  /** The flag "vendor," splits into "vendor" and an empty segment. */
  lemma SplitTrailingComma()
    ensures Split("vendor,", ',') == ["vendor", ""]
  {
    IndexOfAfter("vendor", ',', "");
    assert "vendor" + [','] + "" == "vendor,";
    assert "vendor,"[7..] == "";
    assert "vendor,"[..6] == "vendor";
  }

  /** A root "." holding one Go file, and vendor/dep.go beside it. The
      walks below follow the same step-per-lemma layout as the Markdown
      example above. */
  const GoProject: Node := Dir(".", true, [File("main.go", "", true), Dir("vendor", true, [File("dep.go", "", true)])])

  /** The corrected exclude list keeps "vendor" and the defaults only, so
      the same flag excludes vendor and nothing else. */
  lemma TrailingCommaIntended()
    ensures ExcludeListIntended("vendor,") == ["vendor"] + DefaultExcludes
    ensures FindFiles(Config(ExcludeListIntended("vendor,"), [".go"], "."), GoProject) == Walked([FileInfo("main.go", ".go", 0)], None)
  {
    IntendedVendorList();
    GoProjectWalk(["vendor"] + DefaultExcludes);
  }

  lemma IntendedVendorList()
    ensures ExcludeListIntended("vendor,") == ["vendor"] + DefaultExcludes
  {
    SplitTrailingComma();
    assert DropEmpty(["vendor", ""]) == ["vendor"];
  }

  lemma GoProjectWalk(excl: seq<string>)
    requires excl == ["vendor"] + DefaultExcludes
    ensures WalkNode(".", GoProject, Config(excl, [".go"], ".")) == Walked([FileInfo("main.go", ".go", 0)], None)
  {
    var cfg := Config(excl, [".go"], ".");
    ShortPathNotExcluded(".", excl);
    GoChildrenWalk(cfg);
  }

  lemma GoChildrenWalk(cfg: Config)
    requires cfg.fileExtensions == [".go"] && "vendor" in cfg.excludeDirs
    ensures WalkChildren(".", GoProject.children, cfg) == Walked([FileInfo("main.go", ".go", 0)], None)
  {
    var cs := GoProject.children;
    GoMainVisited(cfg);
    VendorSkipped(cfg);
    var first := WalkNode(Join(".", cs[0].name), cs[0], cfg);
    var rest := WalkChildren(".", cs[1..], cfg);
    assert WalkChildren(".", cs, cfg) == Walked(first.files + rest.files, rest.err);
  }

  lemma GoMainVisited(cfg: Config)
    requires cfg.fileExtensions == [".go"]
    ensures WalkNode(Join(".", "main.go"), GoProject.children[0], cfg) == Walked([FileInfo("main.go", ".go", 0)], None)
  {
    GoFacts();
    assert VisitFile("main.go", GoProject.children[0], [".go"]) == [FileInfo("main.go", ".go", 0)];
  }

  lemma VendorSkipped(cfg: Config)
    requires "vendor" in cfg.excludeDirs
    ensures WalkChildren(".", GoProject.children[1..], cfg) == Walked([], None)
  {
    GoFacts();
    assert Excluded("vendor", cfg.excludeDirs) by {
      assert OccursAt("vendor", "vendor", 0);
    }
    assert WalkNode("vendor", GoProject.children[1], cfg) == Walked([], None);
    assert GoProject.children[1..][1..] == [];
  }

  lemma GoFacts()
    ensures Join(".", "main.go") == "main.go"
    ensures Join(".", "vendor") == "vendor"
    ensures Ext("main.go") == ".go"
    ensures CountLines("") == 0
  {
    JoinBelowDot("main.go");
    JoinBelowDot("vendor");
    var n := "main.go";
    assert ExtScan(n, 7) == ExtScan(n, 6) == ExtScan(n, 5) == n[4..];
  }
}

=== FILE: linecount.dfy ===
/** The line counter of discovery (countLines in internal/core/files.go). */
module LineCount {
  import opened Results
  import opened Strs

  /** The number of lines bufio.Scanner's ScanLines yields for a file's
      bytes: each '\n' ends a line, and a non-empty remainder after the last
      '\n' is one more line; an empty file has none. */
  function CountLines(b: string): (n: nat)
    ensures n == Occurrences(b, '\n') + (if |b| > 0 && b[|b| - 1] != '\n' then 1 else 0)
    decreases |b|
  {
    if |b| == 0 then 0
    else
      match IndexOf(b, '\n')
      case None =>
        OccurrencesAbsent(b, '\n');
        assert b[|b| - 1] in b;
        1
      case Some(i) =>
        var rest := b[i + 1..];
        assert b == b[..i] + ("\n" + rest);
        OccurrencesAbsent(b[..i], '\n');
        OccurrencesAppend(b[..i], "\n" + rest, '\n');
        OccurrencesAppend("\n", rest, '\n');
        assert Occurrences("\n", '\n') == 1;
        assert Occurrences(b, '\n') == 1 + Occurrences(rest, '\n');
        assert |rest| > 0 ==> b[|b| - 1] == rest[|rest| - 1];
        assert |rest| == 0 ==> b[|b| - 1] == '\n';
        1 + CountLines(rest)
  }
}

=== FILE: paths.dfy ===
/** The parts of Go's `path/filepath` package the core relies on, for
    slash-separated paths. */
module Paths {
  import opened Results
  import opened Strs

  /** A directory entry name as the operating system reports it: non-empty,
      no separator, not "." or "..". */
  predicate ValidName(name: string) {
    name != "" && name != "." && name != ".." && '/' !in name
  }

  /** The elements filepath.Clean keeps before it resolves "..": every
      element except the empty ones (from repeated or trailing
      separators) and ".". */
  function Elements(parts: seq<string>): (es: seq<string>)
    ensures forall i :: 0 <= i < |es| ==> es[i] != "" && es[i] != "."
    decreases |parts|
  {
    if parts == [] then []
    else
      var init := Elements(parts[..|parts| - 1]);
      var last := parts[|parts| - 1];
      if last == "" || last == "." then init
      else
        assert forall i :: 0 <= i < |init| ==> (init + [last])[i] == init[i];
        init + [last]
  }

  /** The lexical resolution of "..": it removes the element before it when
      there is one that is not itself "..", is dropped at the start of a
      rooted path, and is kept at the start of a relative one. */
  function Resolve(es: seq<string>, rooted: bool): seq<string>
    decreases |es|
  {
    if es == [] then []
    else
      var done := Resolve(es[..|es| - 1], rooted);
      var x := es[|es| - 1];
      if x != ".." then done + [x]
      else if done != [] && done[|done| - 1] != ".." then done[..|done| - 1]
      else if rooted then done
      else done + [".."]
  }

  /** filepath.Clean: the resolved elements joined by single separators,
      after a leading '/' when the path is rooted; "." when nothing is
      left of a relative path. */
  function Clean(path: string): (c: string)
    ensures c != ""
  {
    if path == "" then "."
    else
      var rooted := path[0] == '/';
      var body := JoinWith(Resolve(Elements(Split(path, '/')), rooted), '/');
      if rooted then "/" + body
      else if body == "" then "."
      else body
  }

  /** filepath.Join(dir, name): the non-empty arguments joined by a
      separator and cleaned; "" when both are empty. */
  function Join(dir: string, name: string): string {
    if dir == "" then (if name == "" then "" else Clean(name))
    else Clean(dir + "/" + name)
  }

  lemma ElementsAppend(parts: seq<string>, x: string)
    ensures Elements(parts + [x]) == Elements(parts) + (if x == "" || x == "." then [] else [x])
  {
    assert (parts + [x])[..|parts|] == parts;
  }

  lemma ResolveAppend(es: seq<string>, x: string, rooted: bool)
    requires x != ".."
    ensures Resolve(es + [x], rooted) == Resolve(es, rooted) + [x]
  {
    assert (es + [x])[..|es|] == es;
  }

  /** A name joined to a non-empty directory comes after the directory's
      resolved elements. */
  lemma JoinResolved(dir: string, name: string)
    requires dir != "" && ValidName(name)
    ensures var rooted := dir[0] == '/';
      Join(dir, name) == (if rooted then "/" else "") + JoinWith(Resolve(Elements(Split(dir, '/')), rooted) + [name], '/')
  {
    var path := dir + "/" + name;
    assert path[0] == dir[0];
    ResolvedPath(dir, name);
    CleanOfResolved(path, Resolve(Elements(Split(dir, '/')), dir[0] == '/'), name);
  }

  /** A valid name appended to a directory is one more element after the
      directory's resolved ones. */
  lemma ResolvedPath(dir: string, name: string)
    requires dir != "" && ValidName(name)
    ensures Resolve(Elements(Split(dir + "/" + name, '/')), dir[0] == '/')
         == Resolve(Elements(Split(dir, '/')), dir[0] == '/') + [name]
  {
    SplitAppend(dir, '/', name);
    assert Split(dir + "/" + name, '/') == Split(dir, '/') + [name];
    ElementsAppend(Split(dir, '/'), name);
    ResolveAppend(Elements(Split(dir, '/')), name, dir[0] == '/');
  }

  /** A path whose resolved elements end in a non-empty one cleans to them
      joined by separators. */
  lemma CleanOfResolved(path: string, st: seq<string>, name: string)
    requires path != "" && name != ""
    requires Resolve(Elements(Split(path, '/')), path[0] == '/') == st + [name]
    ensures Clean(path) == (if path[0] == '/' then "/" else "") + JoinWith(st + [name], '/')
  {
    if st == [] {
      assert st + [name] == [name];
    } else {
      JoinWithAppend(st, name, '/');
    }
  }

  /** A name alone is already clean. */
  lemma CleanName(name: string)
    requires ValidName(name)
    ensures Join("", name) == name
  {
    assert name[0] in name;
    assert IndexOf(name, '/').None?;
    assert Split(name, '/') == [name];
    ElementsAppend([], name);
    assert [] + [name] == [name];
    ResolveAppend([], name, false);
  }

  /** What comes before `name` in a joined path: nothing, or text ending in
      a separator. */
  predicate SeparatedPrefix(p: string) {
    p == [] || p[|p| - 1] == '/'
  }

  /** A joined path ends with the entry name, after a separator or at the
      start. */
  lemma JoinShape(dir: string, name: string) returns (p: string)
    requires ValidName(name)
    ensures Join(dir, name) == p + name && SeparatedPrefix(p)
  {
    if dir == "" {
      CleanName(name);
      p := [];
    } else {
      JoinResolved(dir, name);
      var rooted := dir[0] == '/';
      p := EndsWithName(if rooted then "/" else "", Resolve(Elements(Split(dir, '/')), rooted), name);
    }
  }

  lemma EndsWithName(pre: string, st: seq<string>, name: string) returns (p: string)
    requires pre == "" || pre == "/"
    ensures pre + JoinWith(st + [name], '/') == p + name && SeparatedPrefix(p)
  {
    if st == [] {
      assert st + [name] == [name];
      p := pre;
    } else {
      JoinWithAppend(st, name, '/');
      p := pre + JoinWith(st, '/') + "/";
    }
  }

  /** Paths made of plain names only. */
  predicate PlainParts(parts: seq<string>) {
    |parts| >= 1 && forall i :: 0 <= i < |parts| ==> ValidName(parts[i])
  }

  /** The form Clean leaves its elements in: none empty, "." or holding a
      separator; ".." only at the start, and never in a rooted path. */
  predicate Resolved(st: seq<string>, rooted: bool) {
    && (forall i :: 0 <= i < |st| ==> st[i] != "" && st[i] != "." && '/' !in st[i])
    && (forall i, j :: 0 <= i < j < |st| && st[j] == ".." ==> st[i] == "..")
    && (rooted ==> forall i :: 0 <= i < |st| ==> st[i] != "..")
  }

  /** Elements leaves a list with no empty or "." element unchanged. */
  lemma {:induction false} ElementsUnchanged(parts: seq<string>)
    requires forall i :: 0 <= i < |parts| ==> parts[i] != "" && parts[i] != "."
    ensures Elements(parts) == parts
    decreases |parts|
  {
    if parts != [] {
      var n := |parts| - 1;
      ElementsUnchanged(parts[..n]);
      assert parts == parts[..n] + [parts[n]];
    }
  }

  /** Every element kept is one of the parts. */
  lemma {:induction false} ElementsFromParts(parts: seq<string>)
    ensures forall x :: x in Elements(parts) ==> x in parts
    decreases |parts|
  {
    if parts != [] {
      var n := |parts| - 1;
      ElementsFromParts(parts[..n]);
      assert forall x :: x in parts[..n] ==> x in parts;
    }
  }

  /** Elements drops a leading empty part. */
  lemma {:induction false} ElementsAfterEmpty(parts: seq<string>)
    ensures Elements([""] + parts) == Elements(parts)
    decreases |parts|
  {
    if parts == [] {
      assert Elements([""]) == Elements([""][..0]);
    } else {
      var n := |parts| - 1;
      ElementsAfterEmpty(parts[..n]);
      assert ([""] + parts)[..n + 1] == [""] + parts[..n];
    }
  }

  /** Resolving gives the resolved form. */
  lemma {:induction false} ResolveIsResolved(es: seq<string>, rooted: bool)
    requires forall i :: 0 <= i < |es| ==> es[i] != "" && es[i] != "." && '/' !in es[i]
    ensures Resolved(Resolve(es, rooted), rooted)
    decreases |es|
  {
    if es != [] {
      var n := |es| - 1;
      ResolveIsResolved(es[..n], rooted);
      var done := Resolve(es[..n], rooted);
      var x := es[n];
      if x == ".." && !(done != [] && done[|done| - 1] != "..") && !rooted {
        assert forall i :: 0 <= i < |done| ==> done[i] == ".." by {
          forall i | 0 <= i < |done| ensures done[i] == ".." {
            if i < |done| - 1 { assert done[|done| - 1] == ".."; }
          }
        }
      }
    }
  }

  /** Resolving a list already in resolved form leaves it unchanged. */
  lemma {:induction false} ResolveUnchanged(st: seq<string>, rooted: bool)
    requires Resolved(st, rooted)
    ensures Resolve(st, rooted) == st
    decreases |st|
  {
    if st != [] {
      var n := |st| - 1;
      ResolvedPrefix(st, rooted);
      ResolveUnchanged(st[..n], rooted);
      assert st == st[..n] + [st[n]];
      if st[n] == ".." {
        assert !rooted;
        if n > 0 {
          assert st[..n][n - 1] == "..";
        }
        assert Resolve(st, rooted) == st[..n] + [".."];
      }
    }
  }

  /** Dropping the last element keeps a list resolved. */
  lemma ResolvedPrefix(st: seq<string>, rooted: bool)
    requires st != [] && Resolved(st, rooted)
    ensures Resolved(st[..|st| - 1], rooted)
  {
  }

  /** filepath.Clean is idempotent: a cleaned path is already clean. */
  lemma CleanIdempotent(path: string)
    ensures Clean(Clean(path)) == Clean(path)
  {
    if path != "" {
      var rooted := path[0] == '/';
      var parts := Split(path, '/');
      ElementsFromParts(parts);
      var es := Elements(parts);
      assert forall i :: 0 <= i < |es| ==> '/' !in es[i] by {
        forall i | 0 <= i < |es| ensures '/' !in es[i] {
          assert es[i] in es;
        }
      }
      ResolveIsResolved(es, rooted);
      CleanResolved(Resolve(es, rooted), rooted);
    } else {
      CleanResolved([], false);
    }
  }

  /** The text Clean builds from a resolved list cleans to itself. */
  lemma CleanResolved(st: seq<string>, rooted: bool)
    requires Resolved(st, rooted)
    ensures var c := (if rooted then "/" + JoinWith(st, '/') else if st == [] then "." else JoinWith(st, '/'));
      Clean(c) == c
  {
    if rooted {
      CleanRooted(st);
    } else if st == [] {
      CleanDot();
    } else {
      CleanRelative(st);
    }
  }

  lemma CleanRooted(st: seq<string>)
    requires Resolved(st, true)
    ensures Clean("/" + JoinWith(st, '/')) == "/" + JoinWith(st, '/')
  {
    ElementsUnchanged(st);
    ResolveUnchanged(st, true);
    RootedSplit(st);
    ElementsAfterEmpty(if st == [] then [""] else st);
    assert Elements([""]) == [];
  }

  lemma CleanDot()
    ensures Clean(".") == "."
  {
    assert IndexOf(".", '/').None?;
    assert Split(".", '/') == ["."];
    assert Elements(["."]) == Elements([]);
  }

  lemma CleanRelative(st: seq<string>)
    requires st != [] && Resolved(st, false)
    ensures Clean(JoinWith(st, '/')) == JoinWith(st, '/')
  {
    ElementsUnchanged(st);
    ResolveUnchanged(st, false);
    JoinStartsWithFirst(st, '/');
    assert st[0][0] in st[0];
    SplitJoin(st, '/');
  }

  /** A rooted clean path splits into an empty first part and its
      elements, or two empty parts for "/" itself. */
  lemma RootedSplit(st: seq<string>)
    requires forall i :: 0 <= i < |st| ==> '/' !in st[i]
    ensures var c := "/" + JoinWith(st, '/');
      c[0] == '/' && Split(c, '/') == [""] + (if st == [] then [""] else st)
  {
    var tail := if st == [] then [""] else st;
    var parts := [""] + tail;
    assert parts[1..] == tail;
    assert JoinWith(tail, '/') == JoinWith(st, '/');
    assert JoinWith(parts, '/') == "" + ['/'] + JoinWith(tail, '/');
    assert forall i :: 0 <= i < |parts| ==> '/' !in parts[i];
    SplitJoin(parts, '/');
  }

  /** Below a directory written as plain names, Join only adds a separator
      and the name. */
  lemma JoinPlainDir(parts: seq<string>, name: string)
    requires PlainParts(parts) && ValidName(name)
    ensures Join(JoinWith(parts, '/'), name) == JoinWith(parts, '/') + "/" + name
  {
    var dir := JoinWith(parts, '/');
    JoinStartsWithFirst(parts, '/');
    assert parts[0][0] in parts[0];
    SplitJoin(parts, '/');
    ElementsUnchanged(parts);
    ResolveUnchanged(parts, false);
    JoinResolved(dir, name);
    JoinWithAppend(parts, name, '/');
  }

  /** Below ".", Join gives the name alone. */
  lemma JoinBelowDot(name: string)
    requires ValidName(name)
    ensures Join(".", name) == name
  {
    SplitJoin(["."], '/');
    ElementsAppend([], ".");
    assert [] + ["."] == ["."];
    JoinResolved(".", name);
    assert [] + [name] == [name];
  }

  /** Clean drops "." elements: below the root "./web/scripts" the walk
      records "web/scripts/a.js", not "./web/scripts/a.js". The example is
      worked one stage per lemma (Split, Elements, Resolve, JoinWith),
      because unfolding all four recursive definitions over one literal
      at once is costly for the solver. */
  lemma JoinDropsDotElements(root: string, name: string)
    requires root == "./web/scripts" && name == "a.js"
    ensures Join(root, name) == "web/scripts/a.js"
  {
    JoinResolved(root, name);
    ResolvedWebScripts(root);
    JoinedWebScripts(name);
  }

  lemma ResolvedWebScripts(root: string)
    requires root == "./web/scripts"
    ensures Resolve(Elements(Split(root, '/')), false) == ["web", "scripts"]
  {
    DotWebScripts();
    ResolveWebScripts(Elements(Split(root, '/')));
  }

  lemma ResolveWebScripts(es: seq<string>)
    requires es == ["web", "scripts"]
    ensures Resolve(es, false) == es
  {
    ResolveAppend([], "web", false);
    assert [] + ["web"] == es[..1];
    ResolveAppend(es[..1], "scripts", false);
    assert es[..1] + ["scripts"] == es;
  }

  lemma JoinedWebScripts(name: string)
    requires name == "a.js"
    ensures JoinWith(["web", "scripts"] + [name], '/') == "web/scripts/a.js"
  {
    assert ["web", "scripts"] + [name] == ["web", "scripts", "a.js"];
    assert JoinWith(["web", "scripts", "a.js"], '/') == "web/scripts/a.js";
  }

  lemma DotWebScripts()
    ensures Elements(Split("./web/scripts", '/')) == ["web", "scripts"]
  {
    SplitDotWebScripts();
    ElementsOfDotWebScripts([".", "web", "scripts"]);
  }

  lemma SplitDotWebScripts()
    ensures Split("./web/scripts", '/') == [".", "web", "scripts"]
  {
    assert JoinWith([".", "web", "scripts"], '/') == "./web/scripts";
    SplitJoin([".", "web", "scripts"], '/');
  }

  lemma ElementsOfDotWebScripts(parts: seq<string>)
    requires parts == [".", "web", "scripts"]
    ensures Elements(parts) == ["web", "scripts"]
  {
    ElementsAppend([], ".");
    assert [] + ["."] == ["."] == parts[..1];
    ElementsAppend(parts[..1], "web");
    assert parts[..1] + ["web"] == parts[..2];
    ElementsAppend(parts[..2], "scripts");
    assert parts[..2] + ["scripts"] == parts;
  }

  /** No separator and no '.' in `path[i..]`. */
  predicate PlainTail(path: string, i: nat)
    requires i <= |path|
  {
    forall k :: i <= k < |path| ==> path[k] != '/' && path[k] != '.'
  }

  /** The backward scan of filepath.Ext over `path[..i]`: "" at a separator
      or at the start, otherwise the suffix from the first '.' met. */
  function ExtScan(path: string, i: nat): string
    requires i <= |path|
    decreases i
  {
    if i == 0 || path[i - 1] == '/' then ""
    else if path[i - 1] == '.' then path[i - 1..]
    else ExtScan(path, i - 1)
  }

  /** The scan finds "" or a suffix that starts with its only '.' and holds
      no separator. */
  lemma {:induction false} ExtScanShape(path: string, i: nat)
    requires i <= |path| && PlainTail(path, i)
    ensures var e := ExtScan(path, i);
      e == "" || (e[0] == '.' && |e| <= |path| && path[|path| - |e|..] == e)
    ensures var e := ExtScan(path, i); e != "" ==> '/' !in e && '.' !in e[1..]
    decreases i
  {
    if i > 0 && path[i - 1] != '/' {
      if path[i - 1] == '.' {
        assert forall k :: 0 <= k < |path[i..]| ==> path[i..][k] == path[i + k];
      } else {
        ExtScanShape(path, i - 1);
      }
    }
  }

  /** No '.' in the final element of the path: every '.' has a separator
      somewhere after it. */
  predicate NoDotInLast(path: string) {
    forall k :: 0 <= k < |path| && path[k] == '.' ==> '/' in path[k..]
  }

  /** The scan gives "" only when every '.' in the path is followed by a
      separator somewhere after it. */
  lemma {:induction false} ExtScanEmpty(path: string, i: nat)
    requires i <= |path|
    requires forall k :: i <= k < |path| ==> path[k] != '.'
    ensures ExtScan(path, i) == "" ==> NoDotInLast(path)
    decreases i
  {
    if i > 0 && path[i - 1] == '/' {
      forall k | 0 <= k < i - 1
        ensures '/' in path[k..]
      {
        assert path[k..][i - 1 - k] == '/';
      }
    } else if i > 0 && path[i - 1] != '.' {
      ExtScanEmpty(path, i - 1);
    }
  }

  /** filepath.Ext: the suffix of the final path element from its last '.',
      or "" when that element holds no '.'. */
  function Ext(path: string): (e: string)
    ensures e == "" || (e[0] == '.' && |e| <= |path| && path[|path| - |e|..] == e)
    ensures e != "" ==> '/' !in e && '.' !in e[1..]
    ensures e == "" ==> NoDotInLast(path)
  {
    ExtScanShape(path, |path|);
    ExtScanEmpty(path, |path|);
    ExtScan(path, |path|)
  }

  /** Separator-free text after a separated prefix keeps a plain tail. */
  lemma PlainTailShift(p: string, name: string, k: nat)
    requires k <= |name| && PlainTail(name, k)
    ensures PlainTail(p + name, |p| + k)
  {
    var q := p + name;
    forall j | |p| + k <= j < |q|
      ensures q[j] != '/' && q[j] != '.'
    {
      assert q[j] == name[j - |p|];
    }
  }

  /** The scan only ever looks at the final element. */
  lemma {:induction false} ExtScanSuffix(p: string, name: string, k: nat)
    requires SeparatedPrefix(p) && '/' !in name && k <= |name|
    requires PlainTail(name, k) && PlainTail(p + name, |p| + k)
    ensures ExtScan(p + name, |p| + k) == ExtScan(name, k)
    decreases k
  {
    var q := p + name;
    var i := |p| + k;
    if k == 0 {
      assert |p| > 0 ==> q[i - 1] == '/';
    } else {
      var c := name[k - 1];
      assert q[i - 1] == c;
      assert c != '/' by { assert c in name; }
      if c == '.' {
        assert q[i - 1..] == name[k - 1..];
      } else {
        PlainTailShift(p, name, k - 1);
        ExtScanSuffix(p, name, k - 1);
        assert ExtScan(q, i) == ExtScan(q, i - 1);
      }
    }
  }

  /** The extension of a joined path is the extension of the entry name. */
  lemma ExtOfJoin(dir: string, name: string)
    requires ValidName(name)
    ensures Ext(Join(dir, name)) == Ext(name)
  {
    var p := JoinShape(dir, name);
    PlainTailShift(p, name, |name|);
    ExtScanSuffix(p, name, |name|);
  }

  /** `path` without its trailing separators. */
  function TrimTrailingSeparators(path: string): (t: string)
    ensures t <= path && (t == [] || t[|t| - 1] != '/')
    decreases |path|
  {
    if |path| > 0 && path[|path| - 1] == '/' then TrimTrailingSeparators(path[..|path| - 1])
    else path
  }

  /** The backward scan of filepath.Base over `path[..i]`: everything after
      the last separator. */
  function LastElementScan(path: string, i: nat): (r: string)
    requires i <= |path|
    ensures '/' in path[i..] || '/' !in r
    decreases i
  {
    if i == 0 then path
    else if path[i - 1] == '/' then path[i..]
    else
      assert path[i - 1..] == [path[i - 1]] + path[i..];
      LastElementScan(path, i - 1)
  }

  /** filepath.Base: the final element once trailing separators are gone;
      "." for the empty path and "/" for a path of separators only. */
  function Base(path: string): (b: string)
    ensures b != ""
  {
    if path == "" then "."
    else
      var t := TrimTrailingSeparators(path);
      var last := LastElementScan(t, |t|);
      if last == "" then "/" else last
  }

  lemma {:induction false} LastElementSuffix(p: string, name: string, k: nat)
    requires SeparatedPrefix(p) && '/' !in name && k <= |name|
    ensures LastElementScan(p + name, |p| + k) == name
    decreases k
  {
    var q := p + name;
    if k > 0 {
      assert q[|p| + k - 1] == name[k - 1];
      LastElementSuffix(p, name, k - 1);
    } else if |p| > 0 {
      assert q[|p| - 1] == '/';
      assert q[|p|..] == name;
    } else {
      assert q == name;
    }
  }

  /** The base name of a joined path is the entry name. */
  lemma BaseOfJoin(dir: string, name: string)
    requires ValidName(name)
    ensures Base(Join(dir, name)) == name
  {
    var p := JoinShape(dir, name);
    var q := p + name;
    assert q[|q| - 1] == name[|name| - 1];
    assert name[|name| - 1] in name;
    assert TrimTrailingSeparators(q) == q;
    LastElementSuffix(p, name, |name|);
  }
}

=== FILE: results.dfy ===
/** Option and Result values for the operations that can fail. */
module Results {

  datatype Option<+T> = None | Some(value: T)

  datatype Result<+T, +E> = Ok(value: T) | Err(error: E)
}

=== FILE: strs.dfy ===
/** The parts of Go's `strings` package the core relies on. Strings are
    sequences of characters, one character standing for one byte. */
module Strs {
  import opened Results

  /** strings.HasPrefix */
  predicate HasPrefix(s: string, prefix: string) {
    |prefix| <= |s| && s[..|prefix|] == prefix
  }

  /** `sub` occurs in `s` starting at position `i`. */
  predicate OccursAt(s: string, sub: string, i: int) {
    0 <= i <= |s| - |sub| && s[i..i + |sub|] == sub
  }

  /** strings.Contains: `sub` occurs in `s`, found by trying every start
      position from the left as strings.Index does. */
  predicate Contains(s: string, sub: string)
    ensures Contains(s, sub) <==> exists i :: OccursAt(s, sub, i)
    decreases |s|
  {
    if HasPrefix(s, sub) then
      assert OccursAt(s, sub, 0);
      true
    else if |s| == 0 then
      false
    else
      ContainsStep(s, sub);
      Contains(s[1..], sub)
  }

  /** Occurrences of `sub` in `s` that do not start at position 0 are the
      occurrences in `s[1..]`, shifted by one. */
  lemma ContainsStep(s: string, sub: string)
    requires |s| > 0 && !HasPrefix(s, sub)
    ensures (exists i :: OccursAt(s, sub, i)) <==> (exists i :: OccursAt(s[1..], sub, i))
  {
    var t := s[1..];
    if i :| OccursAt(s, sub, i) {
      assert i != 0;
      assert t[i - 1..i - 1 + |sub|] == s[i..i + |sub|];
      assert OccursAt(t, sub, i - 1);
    }
    if i :| OccursAt(t, sub, i) {
      assert s[i + 1..i + 1 + |sub|] == t[i..i + |sub|];
      assert OccursAt(s, sub, i + 1);
    }
  }

  /** Position of the first `c` in `s`, as strings.IndexByte. */
  function IndexOf(s: string, c: char): (r: Option<nat>)
    ensures r.None? ==> c !in s
    ensures r.Some? ==> r.value < |s| && s[r.value] == c && c !in s[..r.value]
    decreases |s|
  {
    if |s| == 0 then None
    else if s[0] == c then Some(0)
    else
      match IndexOf(s[1..], c)
      case None => None
      case Some(i) =>
        assert s[..i + 1] == [s[0]] + s[1..][..i];
        Some(i + 1)
  }

  /** strings.Join: the parts with one separator between neighbours. */
  function JoinWith(parts: seq<string>, sep: char): string
    decreases |parts|
  {
    if |parts| == 0 then ""
    else if |parts| == 1 then parts[0]
    else parts[0] + [sep] + JoinWith(parts[1..], sep)
  }

  /** strings.Split with a one-character separator: the maximal runs between
      separators, so an empty string gives one empty part and every
      separator adds one part. Joining the parts again gives back `s`. */
  function Split(s: string, sep: char): (parts: seq<string>)
    ensures |parts| >= 1
    ensures forall i :: 0 <= i < |parts| ==> sep !in parts[i]
    ensures JoinWith(parts, sep) == s
    decreases |s|
  {
    match IndexOf(s, sep)
    case None => [s]
    case Some(i) =>
      var rest := Split(s[i + 1..], sep);
      assert s == s[..i] + [sep] + s[i + 1..];
      [s[..i]] + rest
  }

  /** Splitting a joined list gives the list back, provided no part holds
      the separator. */
  lemma {:induction false} SplitJoin(parts: seq<string>, sep: char)
    requires |parts| >= 1
    requires forall i :: 0 <= i < |parts| ==> sep !in parts[i]
    ensures Split(JoinWith(parts, sep), sep) == parts
    decreases |parts|
  {
    var s := JoinWith(parts, sep);
    if |parts| == 1 {
      assert IndexOf(s, sep).None?;
    } else {
      var tail := JoinWith(parts[1..], sep);
      assert s == parts[0] + [sep] + tail;
      IndexOfAfter(parts[0], sep, tail);
      assert s[..|parts[0]|] == parts[0];
      assert s[|parts[0]| + 1..] == tail;
      SplitJoin(parts[1..], sep);
      assert parts == [parts[0]] + parts[1..];
    }
  }

  /** The first separator after a separator-free prefix is the one that
      ends it. */
  lemma {:induction false} IndexOfAfter(a: string, c: char, b: string)
    requires c !in a
    ensures IndexOf(a + [c] + b, c) == Some(|a|)
    decreases |a|
  {
    if |a| > 0 {
      assert (a + [c] + b)[1..] == a[1..] + [c] + b;
      IndexOfAfter(a[1..], c, b);
    }
  }

  /** Joining one more part adds a separator and the part. */
  lemma {:induction false} JoinWithAppend(parts: seq<string>, last: string, sep: char)
    requires |parts| >= 1
    ensures JoinWith(parts + [last], sep) == JoinWith(parts, sep) + [sep] + last
    decreases |parts|
  {
    var all := parts + [last];
    assert all[1..] == parts[1..] + [last];
    if |parts| > 1 {
      JoinWithAppend(parts[1..], last, sep);
    }
  }

  /** Splitting after one more separator-free part gives one more part. */
  lemma SplitAppend(s: string, sep: char, last: string)
    requires sep !in last
    ensures Split(s + [sep] + last, sep) == Split(s, sep) + [last]
  {
    var parts := Split(s, sep);
    var all := parts + [last];
    JoinWithAppend(parts, last, sep);
    assert forall i :: 0 <= i < |all| ==> sep !in all[i] by {
      forall i | 0 <= i < |all| ensures sep !in all[i] {
        if i < |parts| {
          assert all[i] == parts[i];
        }
      }
    }
    SplitJoin(all, sep);
  }

  lemma {:induction false} JoinStartsWithFirst(parts: seq<string>, sep: char)
    requires |parts| >= 1 && parts[0] != ""
    ensures JoinWith(parts, sep) != "" && JoinWith(parts, sep)[0] == parts[0][0]
  {
  }

  /** Every character of a part is a character of the joined string. */
  lemma {:induction false} JoinedCharacters(parts: seq<string>, sep: char, i: nat, c: char)
    requires i < |parts| && c in parts[i]
    ensures c in JoinWith(parts, sep)
    decreases |parts|
  {
    if |parts| > 1 {
      if i == 0 {
        assert parts[0] <= JoinWith(parts, sep);
      } else {
        JoinedCharacters(parts[1..], sep, i - 1, c);
        var tail := JoinWith(parts[1..], sep);
        var k :| 0 <= k < |tail| && tail[k] == c;
        assert JoinWith(parts, sep)[|parts[0]| + 1 + k] == c;
      }
    }
  }

  /** The ASCII upper-case letter for `c`; every other character is kept. */
  function UpperChar(c: char): char {
    if 'a' <= c <= 'z' then (c as int - 32) as char else c
  }

  /** strings.ToUpper, restricted to ASCII: same length, no lower-case
      ASCII letter left. */
  function ToUpper(s: string): (u: string)
    ensures |u| == |s|
    ensures forall i :: 0 <= i < |u| ==> !('a' <= u[i] <= 'z')
  {
    seq(|s|, i requires 0 <= i < |s| => UpperChar(s[i]))
  }

  /** strings.Repeat of a one-character string. */
  function Repeat(c: char, n: nat): (r: string)
    ensures |r| == n && forall i :: 0 <= i < n ==> r[i] == c
  {
    seq(n, i => c)
  }

  /** Number of times `c` occurs in `s`. */
  function Occurrences(s: string, c: char): nat
    decreases |s|
  {
    if |s| == 0 then 0 else (if s[0] == c then 1 else 0) + Occurrences(s[1..], c)
  }

  lemma {:induction false} OccurrencesAppend(a: string, b: string, c: char)
    ensures Occurrences(a + b, c) == Occurrences(a, c) + Occurrences(b, c)
    decreases |a|
  {
    if |a| > 0 {
      assert (a + b)[1..] == a[1..] + b;
      OccurrencesAppend(a[1..], b, c);
    } else {
      assert a + b == b;
    }
  }

  lemma {:induction false} OccurrencesAbsent(s: string, c: char)
    requires c !in s
    ensures Occurrences(s, c) == 0
    decreases |s|
  {
    if |s| > 0 {
      OccurrencesAbsent(s[1..], c);
    }
  }

  /** Go's `<` on strings: byte-wise lexicographic order, a proper prefix
      coming first. (Dafny's own `<` on sequences means "proper prefix".) */
  predicate Less(a: string, b: string)
    decreases |a|
  {
    if |a| == 0 then |b| > 0
    else if |b| == 0 then false
    else if a[0] != b[0] then a[0] < b[0]
    else Less(a[1..], b[1..])
  }

  lemma {:induction false} LessIrreflexive(a: string)
    ensures !Less(a, a)
    decreases |a|
  {
    if |a| > 0 {
      LessIrreflexive(a[1..]);
    }
  }

  lemma {:induction false} LessTransitive(a: string, b: string, c: string)
    requires Less(a, b) && Less(b, c)
    ensures Less(a, c)
    decreases |a|
  {
    if |a| > 0 && a[0] == b[0] && b[0] == c[0] {
      LessTransitive(a[1..], b[1..], c[1..]);
    }
  }

  /** Any two different strings are ordered one way or the other. */
  lemma {:induction false} LessTotal(a: string, b: string)
    ensures a == b || Less(a, b) || Less(b, a)
    decreases |a|
  {
    if |a| > 0 && |b| > 0 && a[0] == b[0] {
      LessTotal(a[1..], b[1..]);
      if a[1..] == b[1..] {
        assert a == [a[0]] + a[1..] && b == [b[0]] + b[1..];
      }
    }
  }
}

=== FILE: tree.dfy ===
/** The directory tree text (GenerateDirectoryTree in
    internal/core/tree.go): a second, independent walk that re-applies the
    exclusion and extension rules. */
module DirectoryTree {
  import opened Strs
  import opened Paths
  import opened FileTree
  import opened Discovery

  /** When a file is listed in the tree. */
  datatype FileRule =
    | ExtensionIn(exts: seq<string>)  // filepath.Ext of the name is one of `exts`, with no match-all case
    | AsDiscovery(exts: seq<string>)  // the discovery policy, match-all mode included

  predicate Lists(rule: FileRule, name: string) {
    match rule
    case ExtensionIn(exts) => Ext(name) in exts
    case AsDiscovery(exts) => Selects(exts, name)
  }

  /** One line of the tree: its indentation level and the name it shows,
      with the path of the entry (the text carries only level and name). */
  datatype TreeLine = TreeLine(level: nat, name: string, path: string, isFile: bool)

  /** The recursive `walk(dir, level)`: a directory whose listing cannot be
      read gives no lines, not even its own name; otherwise its own line,
      then, in listing order, each non-excluded subdirectory one level
      deeper and each listed file one level deeper. */
  function Walk(dir: string, node: Node, level: nat, excludeDirs: seq<string>, rule: FileRule): (lines: seq<TreeLine>)
    ensures lines == [] <==> node.File? || !node.readable
    ensures lines != [] ==> lines[0] == TreeLine(level, Base(dir), dir, false) && Beneath(lines[1..], level, rule)
    decreases node
  {
    match node
    case File(_, _, _) => []
    case Dir(_, r, cs) =>
      if !r then []
      else
        var below := WalkEntries(dir, cs, level, excludeDirs, rule);
        assert ([TreeLine(level, Base(dir), dir, false)] + below)[1..] == below;
        [TreeLine(level, Base(dir), dir, false)] + below
  }

  /** Lines drawn inside a directory shown at `level`: every one deeper,
      and every file line one the rule lists. */
  predicate Beneath(lines: seq<TreeLine>, level: nat, rule: FileRule) {
    forall i :: 0 <= i < |lines| ==> lines[i].level > level && (lines[i].isFile ==> Lists(rule, lines[i].name))
  }

  /** The loop over the entries of the directory at `dir`, which is shown
      at `level`. */
  function WalkEntries(dir: string, children: seq<Node>, level: nat, excludeDirs: seq<string>, rule: FileRule): (lines: seq<TreeLine>)
    ensures Beneath(lines, level, rule)
    decreases children
  {
    if children == [] then []
    else
      var c := children[0];
      var path := Join(dir, c.name);
      var here :=
        if c.Dir? then
          if Excluded(path, excludeDirs) then [] else Walk(path, c, level + 1, excludeDirs, rule)
        else if Lists(rule, c.name) then [TreeLine(level + 1, c.name, path, true)]
        else [];
      var rest := WalkEntries(dir, children[1..], level, excludeDirs, rule);
      BeneathSub(here, level, rule);
      BeneathAppend(here, rest, level, rule);
      here + rest
  }

  /** The lines of a subdirectory shown one level deeper lie beneath. */
  lemma BeneathSub(here: seq<TreeLine>, level: nat, rule: FileRule)
    requires here == [] || (here[0].level == level + 1 && !here[0].isFile && Beneath(here[1..], level + 1, rule))
      || (|here| == 1 && here[0].level == level + 1 && Lists(rule, here[0].name))
    ensures Beneath(here, level, rule)
  {
    forall i | 0 <= i < |here| ensures here[i].level > level && (here[i].isFile ==> Lists(rule, here[i].name)) {
      if i > 0 {
        assert here[i] == here[1..][i - 1];
      }
    }
  }

  lemma BeneathAppend(a: seq<TreeLine>, b: seq<TreeLine>, level: nat, rule: FileRule)
    requires Beneath(a, level, rule) && Beneath(b, level, rule)
    ensures Beneath(a + b, level, rule)
  {
    forall i | 0 <= i < |a + b| ensures (a + b)[i].level > level && ((a + b)[i].isFile ==> Lists(rule, (a + b)[i].name)) {
      if i < |a| {
        assert (a + b)[i] == a[i];
      } else {
        assert (a + b)[i] == b[i - |a|];
      }
    }
  }

  /** The paths of the file lines, in order. */
  function FilePaths(lines: seq<TreeLine>): seq<string> {
    if lines == [] then []
    else (if lines[0].isFile then [lines[0].path] else []) + FilePaths(lines[1..])
  }

  /** strings.Repeat("    ", level). */
  function Indent(level: nat): string {
    Repeat(' ', 4 * level)
  }

  /** The text of a line: the root's name alone, every other line indented
      by four spaces per level before "|- ". It holds no newline the name
      does not hold, and it reads back as the line's level and name,
      provided a root name does not itself start with a space. */
  function Format(line: TreeLine): (t: string)
    ensures '\n' !in line.name ==> '\n' !in t
    ensures (line.level == 0 ==> line.name == [] || line.name[0] != ' ') ==> ParseLine(t) == (line.level, line.name)
  {
    if line.level == 0 then
      assert line.name == [] || line.name[0] != ' ' ==> LeadingSpaces(line.name) == 0;
      line.name
    else
      IndentedLine(line.level, line.name);
      Indent(line.level) + "|- " + line.name
  }

  /** An indented line holds only the name's newlines and reads back as its
      level and name. */
  lemma IndentedLine(level: nat, name: string)
    requires level > 0
    ensures '\n' !in name ==> '\n' !in Indent(level) + "|- " + name
    ensures ParseLine(Indent(level) + "|- " + name) == (level, name)
  {
    var pre := Indent(level) + "|- ";
    assert forall k :: 0 <= k < |pre| ==> pre[k] != '\n';
    IndentedParse(level, name, pre + name);
  }

  lemma IndentedParse(level: nat, name: string, t: string)
    requires level > 0 && t == Indent(level) + "|- " + name
    ensures ParseLine(t) == (level, name)
  {
    var n := 4 * level;
    assert t == Repeat(' ', n) + ("|- " + name);
    LeadingSpacesOfIndent(n, "|- " + name);
    assert t[n..] == "|- " + name;
    assert t[n + 3..] == name;
  }

  /** The text of every line, in order. */
  function FormatAll(lines: seq<TreeLine>): seq<string> {
    seq(|lines|, i requires 0 <= i < |lines| => Format(lines[i]))
  }

  /** strings.Join(tree, "\n"). When no name holds a newline, the text
      splits at newlines back into exactly the formatted lines, one per
      tree line and none trailing. */
  function Render(lines: seq<TreeLine>): (text: string)
    ensures lines != [] && (forall i :: 0 <= i < |lines| ==> '\n' !in lines[i].name) ==>
      Split(text, '\n') == FormatAll(lines)
  {
    var texts := FormatAll(lines);
    assert (forall i :: 0 <= i < |lines| ==> '\n' !in lines[i].name) ==> forall i :: 0 <= i < |texts| ==> '\n' !in texts[i];
    JoinedLinesSplit(texts);
    JoinWith(texts, '\n')
  }

  lemma JoinedLinesSplit(texts: seq<string>)
    ensures texts != [] && (forall i :: 0 <= i < |texts| ==> '\n' !in texts[i]) ==> Split(JoinWith(texts, '\n'), '\n') == texts
  {
    if texts != [] && forall i :: 0 <= i < |texts| ==> '\n' !in texts[i] {
      SplitJoin(texts, '\n');
    }
  }

  /** GenerateDirectoryTree(root, excludeDirs, extensions): the rendered
      shown entries of the tree, in depth-first order, with the root's
      line first and files listed by their extension alone. */
  function GenerateDirectoryTree(root: string, node: Node, excludeDirs: seq<string>, exts: seq<string>): (text: string)
    ensures text == Render(ShownLines(Entries(root, node, []), excludeDirs, ExtensionIn(exts)))
  {
    TreeShowsEntries(root, node, excludeDirs, ExtensionIn(exts));
    Render(Walk(root, node, 0, excludeDirs, ExtensionIn(exts)))
  }

  /** The lines of the tree as the discovery policy would draw it: a
      directory root as the source walks it, and a file root, which the
      source cannot list, as one line of its own when the rule lists its
      path. */
  function RootLines(root: string, node: Node, excludeDirs: seq<string>, rule: FileRule): seq<TreeLine> {
    if node.File? then (if Lists(rule, root) then [TreeLine(0, Base(root), root, true)] else [])
    else Walk(root, node, 0, excludeDirs, rule)
  }

  /** The tree as the discovery policy would list it: in match-all mode
      every non-hidden file, otherwise the files whose extension is
      configured, and a file root as itself. */
  function GenerateDirectoryTreeIntended(root: string, node: Node, excludeDirs: seq<string>, exts: seq<string>): string {
    Render(RootLines(root, node, excludeDirs, AsDiscovery(exts)))
  }

  /** The number of spaces a text starts with. */
  function LeadingSpaces(s: string): (n: nat)
    ensures n <= |s| && (n < |s| ==> s[n] != ' ')
    ensures forall k :: 0 <= k < n ==> s[k] == ' '
    decreases |s|
  {
    if |s| > 0 && s[0] == ' ' then 1 + LeadingSpaces(s[1..]) else 0
  }

  /** Reads a tree line back: four spaces per level before "|- " and the
      name, or, with no such prefix, a root name at level 0. */
  function ParseLine(text: string): (r: (nat, string)) {
    var n := LeadingSpaces(text);
    if n > 0 && n % 4 == 0 && HasPrefix(text[n..], "|- ") then (n / 4, text[n + 3..])
    else (0, text)
  }

  lemma {:induction false} LeadingSpacesOfIndent(k: nat, rest: string)
    requires rest == [] || rest[0] != ' '
    ensures LeadingSpaces(Repeat(' ', k) + rest) == k
    decreases k
  {
    if k > 0 {
      assert (Repeat(' ', k) + rest)[1..] == Repeat(' ', k - 1) + rest;
      LeadingSpacesOfIndent(k - 1, rest);
    } else {
      assert Repeat(' ', k) + rest == rest;
    }
  }

  /** The tree text splits into one line per tree line, each reading back
      as that line's depth and name. */
  lemma TreeTextReadsBack(lines: seq<TreeLine>)
    requires lines != []
    requires forall i :: 0 <= i < |lines| ==> '\n' !in lines[i].name
    requires forall i :: 0 <= i < |lines| && lines[i].level == 0 ==> lines[i].name == [] || lines[i].name[0] != ' '
    ensures |Split(Render(lines), '\n')| == |lines|
    ensures forall i :: 0 <= i < |lines| ==> ParseLine(Split(Render(lines), '\n')[i]) == (lines[i].level, lines[i].name)
  {
  }

  /** An entry the tree shows: every enclosing directory readable, none
      below the root excluded; a directory must itself be readable and,
      below the root, not excluded; a file must sit in a directory and be
      listed by the rule. */
  predicate Shown(e: Entry, excludeDirs: seq<string>, rule: FileRule) {
    && (forall i :: 0 <= i < |e.above| ==> e.above[i].readable)
    && (forall i :: 1 <= i < |e.above| ==> !Excluded(e.above[i].path, excludeDirs))
    && match e.node
       case Dir(_, r, _) => r && (|e.above| > 0 ==> !Excluded(e.path, excludeDirs))
       case File(name, _, _) => |e.above| > 0 && Lists(rule, name)
  }

  /** The line showing an entry, at its depth. */
  function LineOf(e: Entry): TreeLine {
    TreeLine(|e.above|, if e.node.Dir? then Base(e.path) else e.node.name, e.path, e.node.File?)
  }

  function ShownLines(es: seq<Entry>, excludeDirs: seq<string>, rule: FileRule): seq<TreeLine> {
    if es == [] then []
    else (if Shown(es[0], excludeDirs, rule) then [LineOf(es[0])] else []) + ShownLines(es[1..], excludeDirs, rule)
  }

  lemma {:induction false} ShownAppend(a: seq<Entry>, b: seq<Entry>, excludeDirs: seq<string>, rule: FileRule)
    ensures ShownLines(a + b, excludeDirs, rule) == ShownLines(a, excludeDirs, rule) + ShownLines(b, excludeDirs, rule)
    decreases |a|
  {
    if a != [] {
      var h := if Shown(a[0], excludeDirs, rule) then [LineOf(a[0])] else [];
      assert (a + b)[0] == a[0];
      assert (a + b)[1..] == a[1..] + b;
      assert ShownLines(a + b, excludeDirs, rule) == h + ShownLines(a[1..] + b, excludeDirs, rule);
      ShownAppend(a[1..], b, excludeDirs, rule);
      assert ShownLines(a, excludeDirs, rule) == h + ShownLines(a[1..], excludeDirs, rule);
    } else {
      assert a + b == b;
    }
  }

  lemma {:induction false} NoneShown(es: seq<Entry>, excludeDirs: seq<string>, rule: FileRule)
    requires forall e :: e in es ==> !Shown(e, excludeDirs, rule)
    ensures ShownLines(es, excludeDirs, rule) == []
    decreases |es|
  {
    if es != [] {
      assert es[0] in es;
      assert forall e :: e in es[1..] ==> e in es;
      NoneShown(es[1..], excludeDirs, rule);
    }
  }

  /** The walk from an entry reached by the tree shows exactly the shown
      entries at or below it, in depth-first order. */
  lemma {:induction false} WalkShowsEntries(path: string, node: Node, above: seq<Step>, excludeDirs: seq<string>, rule: FileRule)
    requires node.Dir? || above == []
    requires forall i :: 0 <= i < |above| ==> above[i].readable
    requires forall i :: 1 <= i < |above| ==> !Excluded(above[i].path, excludeDirs)
    requires |above| > 0 ==> !Excluded(path, excludeDirs)
    ensures Walk(path, node, |above|, excludeDirs, rule) == ShownLines(Entries(path, node, above), excludeDirs, rule)
    decreases node, 1
  {
    if node.File? {
      FileShows(path, node, excludeDirs, rule);
    } else if !node.readable {
      UnreadableDirShows(path, node, above, excludeDirs, rule);
    } else {
      ListedDirShows(path, node, above, excludeDirs, rule);
    }
  }

  /** The walk of a listed directory reached by the tree: its own line,
      then the shown entries of its children. */
  lemma {:induction false} ListedDirShows(path: string, node: Node, above: seq<Step>, excludeDirs: seq<string>, rule: FileRule)
    requires node.Dir? && node.readable
    requires forall i :: 0 <= i < |above| ==> above[i].readable
    requires forall i :: 1 <= i < |above| ==> !Excluded(above[i].path, excludeDirs)
    requires |above| > 0 ==> !Excluded(path, excludeDirs)
    ensures Walk(path, node, |above|, excludeDirs, rule) == ShownLines(Entries(path, node, above), excludeDirs, rule)
    decreases node, 0
  {
    var below := above + [Step(path, true)];
    StepInto(path, above, excludeDirs);
    assert |below| - 1 == |above|;
    ChildrenShowEntries(path, node.children, below, excludeDirs, rule);
    ReadableDirShows(path, node, above, excludeDirs, rule);
  }

  /** A file given as the root is its only entry, and the walk draws
      exactly its shown line. */
  lemma FileShows(path: string, node: Node, excludeDirs: seq<string>, rule: FileRule)
    requires node.File?
    ensures Walk(path, node, 0, excludeDirs, rule) == ShownLines(Entries(path, node, []), excludeDirs, rule)
  {
    assert Entries(path, node, []) == [Entry(path, node, [])];
  }

  /** Entering a listed directory that is not excluded keeps every
      directory above readable and, below the root, not excluded. */
  lemma StepInto(path: string, above: seq<Step>, excludeDirs: seq<string>)
    requires forall i :: 0 <= i < |above| ==> above[i].readable
    requires forall i :: 1 <= i < |above| ==> !Excluded(above[i].path, excludeDirs)
    requires |above| > 0 ==> !Excluded(path, excludeDirs)
    ensures var below := above + [Step(path, true)];
      && (forall i :: 0 <= i < |below| ==> below[i].readable)
      && (forall i :: 1 <= i < |below| ==> !Excluded(below[i].path, excludeDirs))
  {
  }

  /** A directory that cannot be listed shows nothing, and the walk draws
      nothing for it. */
  lemma UnreadableDirShows(path: string, node: Node, above: seq<Step>, excludeDirs: seq<string>, rule: FileRule)
    requires node.Dir? && !node.readable
    requires forall i :: 0 <= i < |above| ==> above[i].readable
    requires forall i :: 1 <= i < |above| ==> !Excluded(above[i].path, excludeDirs)
    requires |above| > 0 ==> !Excluded(path, excludeDirs)
    ensures Walk(path, node, |above|, excludeDirs, rule) == ShownLines(Entries(path, node, above), excludeDirs, rule)
  {
    DirEntriesSplit(path, node, above, excludeDirs, rule);
    UnreadableShowsNothing(path, node, above, excludeDirs, rule);
  }

  /** A listed directory draws its own line and then the lines of its
      entries, which are the shown lines below it. */
  lemma ReadableDirShows(path: string, node: Node, above: seq<Step>, excludeDirs: seq<string>, rule: FileRule)
    requires node.Dir? && node.readable
    requires forall i :: 0 <= i < |above| ==> above[i].readable
    requires forall i :: 1 <= i < |above| ==> !Excluded(above[i].path, excludeDirs)
    requires |above| > 0 ==> !Excluded(path, excludeDirs)
    requires WalkEntries(path, node.children, |above|, excludeDirs, rule)
          == ShownLines(ChildEntries(path, node.children, above + [Step(path, true)]), excludeDirs, rule)
    ensures Walk(path, node, |above|, excludeDirs, rule) == ShownLines(Entries(path, node, above), excludeDirs, rule)
  {
    DirEntriesSplit(path, node, above, excludeDirs, rule);
    assert Walk(path, node, |above|, excludeDirs, rule)
        == [TreeLine(|above|, Base(path), path, false)] + WalkEntries(path, node.children, |above|, excludeDirs, rule);
  }

  /** The shown lines of a directory's entries are its own line, when it
      can be read, followed by the shown lines of the entries below it. */
  lemma DirEntriesSplit(path: string, node: Node, above: seq<Step>, excludeDirs: seq<string>, rule: FileRule)
    requires node.Dir?
    requires forall i :: 0 <= i < |above| ==> above[i].readable
    requires forall i :: 1 <= i < |above| ==> !Excluded(above[i].path, excludeDirs)
    requires |above| > 0 ==> !Excluded(path, excludeDirs)
    ensures ShownLines(Entries(path, node, above), excludeDirs, rule)
         == (if node.readable then [TreeLine(|above|, Base(path), path, false)] else [])
          + ShownLines(ChildEntries(path, node.children, above + [Step(path, node.readable)]), excludeDirs, rule)
  {
    var es := Entries(path, node, above);
    var below := ChildEntries(path, node.children, above + [Step(path, node.readable)]);
    assert es == [es[0]] + below;
    ShownAppend([es[0]], below, excludeDirs, rule);
    DirLine(path, node, above, excludeDirs, rule);
  }

  /** A reached directory shows its own line exactly when it is readable. */
  lemma DirLine(path: string, node: Node, above: seq<Step>, excludeDirs: seq<string>, rule: FileRule)
    requires node.Dir?
    requires forall i :: 0 <= i < |above| ==> above[i].readable
    requires forall i :: 1 <= i < |above| ==> !Excluded(above[i].path, excludeDirs)
    requires |above| > 0 ==> !Excluded(path, excludeDirs)
    ensures ShownLines([Entry(path, node, above)], excludeDirs, rule)
         == if node.readable then [TreeLine(|above|, Base(path), path, false)] else []
  {
    var e := Entry(path, node, above);
    assert Shown(e, excludeDirs, rule) <==> node.readable;
    assert ShownLines([e][1..], excludeDirs, rule) == [];
  }

  /** Nothing at or below a directory whose listing cannot be read is
      shown: neither the directory itself nor any entry below it. */
  lemma UnreadableShowsNothing(path: string, node: Node, above: seq<Step>, excludeDirs: seq<string>, rule: FileRule)
    requires node.Dir? && !node.readable
    ensures ShownLines(Entries(path, node, above)[1..], excludeDirs, rule) == []
    ensures ShownLines(Entries(path, node, above), excludeDirs, rule) == []
  {
    var es := Entries(path, node, above);
    forall e | e in es[1..] ensures !Shown(e, excludeDirs, rule) {
      assert !e.above[|above|].readable;
    }
    NoneShown(es[1..], excludeDirs, rule);
    assert es == [es[0]] + es[1..];
    ShownAppend([es[0]], es[1..], excludeDirs, rule);
    assert ShownLines([es[0]][1..], excludeDirs, rule) == [];
  }

  /** Nothing at or below an excluded directory under the root is shown. */
  lemma ExcludedShowsNothing(path: string, node: Node, above: seq<Step>, excludeDirs: seq<string>, rule: FileRule)
    requires node.Dir? && |above| > 0 && Excluded(path, excludeDirs)
    ensures ShownLines(Entries(path, node, above), excludeDirs, rule) == []
  {
    var es := Entries(path, node, above);
    forall e | e in es ensures !Shown(e, excludeDirs, rule) {
      if e != es[0] {
        assert e in es[1..];
        assert e.above[|above|].path == path;
      }
    }
    NoneShown(es, excludeDirs, rule);
  }

  lemma {:induction false} ChildrenShowEntries(dir: string, children: seq<Node>, above: seq<Step>, excludeDirs: seq<string>, rule: FileRule)
    requires |above| > 0
    requires forall i :: 0 <= i < |above| ==> above[i].readable
    requires forall i :: 1 <= i < |above| ==> !Excluded(above[i].path, excludeDirs)
    ensures WalkEntries(dir, children, |above| - 1, excludeDirs, rule) == ShownLines(ChildEntries(dir, children, above), excludeDirs, rule)
    decreases children
  {
    if children != [] {
      var c := children[0];
      var path := Join(dir, c.name);
      var head := Entries(path, c, above);
      var tail := ChildEntries(dir, children[1..], above);
      ShownAppend(head, tail, excludeDirs, rule);
      ChildrenShowEntries(dir, children[1..], above, excludeDirs, rule);
      if c.Dir? {
        if Excluded(path, excludeDirs) {
          ExcludedShowsNothing(path, c, above, excludeDirs, rule);
        } else {
          WalkShowsEntries(path, c, above, excludeDirs, rule);
        }
      } else {
        assert head == [Entry(path, c, above)];
      }
    }
  }

  /** The whole tree shows exactly the shown entries of the tree, in
      depth-first order: the root's line first, never compared with the
      excludes. */
  lemma TreeShowsEntries(root: string, node: Node, excludeDirs: seq<string>, rule: FileRule)
    ensures Walk(root, node, 0, excludeDirs, rule) == ShownLines(Entries(root, node, []), excludeDirs, rule)
  {
    WalkShowsEntries(root, node, [], excludeDirs, rule);
  }
}
